=== FILE: README.md ===
# Single-game Electron launcher, modelled in Dafny

The launcher has three parts:

- **The renderer** (`renderer/renderer.js`) holds a state record `S`. Its game state `appState` is one of `loading`, `install`, `update`, `play`, `installing` and `running`. A second machine tracks the launcher's own update: `idle`, `available`, `downloading`, `ready`.
- **The main process** (`main.js`) answers IPC requests. It decodes the `installed.json` record, downloads, extracts and records a game install, launches and closes the game, and fetches the game manifest.
- **The preload bridge** (`preload.js`) maps each renderer method to one IPC channel. It also filters push channels through an eight-name allowlist before appending a listener.

The model turns each handler into a pure function over immutable data. An `await` after which a handler changes the record splits that handler into two events: the click, and the settling of the promise. The two awaits of `loadGameState` (the manifest, then `get-game-state`) are one `Loaded` event. Between them the record only gains the manifest, and no handler reads it while the state is still `loading`. A run of the renderer is a sequence of such events. The main process's I/O outcomes are parameters:

- a failed request, the chunks received, and how the response stopped (ended, errored or stalled);
- whether `unzip`, the deletion of the archive, the write of `installed.json` or the kill command failed;
- `Date.now()`.

Modules:

| module | file | what it holds |
|---|---|---|
| `Wrappers` | wrappers.dfy | `Option`, `Result` |
| `Json` | json.dfy | values as `JSON.parse` yields them, with truthiness, `===`, and property reads (last duplicate key wins; `null`/`undefined` throw) |
| `Decimal` | decimal.dfy | `parseInt` without a radix; `String(n)` for integers, both the plain numeral and the exponent form from 10^21 |
| `Progress` | progress.dfy | the download percent and the stream of `game-download-progress` payloads |
| `Preload` | preload.dfy | the bridge: `on` with its allowlist, the append-only listener registry, the method-to-channel mapping |
| `MainProcess` | main_process.dfy | the `get-game-state`, `install-game`, `extractGame`, `launch-game`, `close-game` and `fetch-game-manifest` handlers |
| `LauncherUpdate` | launcher_update.dfy | the launcher's self-update machine |
| `Renderer` | renderer.dfy | the record `S`, one function per handler, `Step`/`Run` over events, the reachable-state invariant |
| `Scenario` | scenario.dfy | whole runs: every state is reachable, an update from end to end, a failed update and its retry |

Where the code and the behaviour one might expect differ, the model follows the code:

- **Percent rounds.** It is `Math.round`, not the floor, so 199 of 200 bytes already shows 100% (`Progress.RoundsNotTruncates`).
- **A failed manifest fetch leaves the renderer in `loading`.** Only the DOM shows "OFFLINE". `localState` is not touched and `getGameState` is not called (`Renderer.FetchFailureKeepsState`).
- **A failed install always lands in `install`,** even when it started from `update` and the old version is still installed (`Scenario.FailedUpdateScenario`).
- **The manifest request can reject in two ways, or never settle.** It rejects on a request error and on an unparseable body. Its `timeout` option only emits an event nobody listens to, and nothing listens for the response's `error`. So a body that stalls or breaks off leaves the call unsettled (`MainProcess.FetchManifest`'s `NoEnd`).
- **A stalled game download never settles either.** `install-game` sets no timeout (`MainProcess.InstallGame` with `Stalled`).
- **A failed write of `installed.json` rejects without the completion message.** The write comes after the extraction, so the game files are already in place, and the record may be left partly written (`MainProcess.InstallWriteFails`).
- **`totalSize` of 10^21 or more is read as its first digit.** `String` writes such a number in exponent form (`1e+21`), and `parseInt` stops at the point or the `e` (`MainProcess.HugeTotalReadsAsOne`).
- **`get-game-state` does not check for a game executable.** Any parsed document other than `null` counts as installed.
- **`launch-game` never assigns the game handle.** So `close-game` always kills by process name (`MainProcess.NeverHoldsHandle`).
- **Each install attempt registers one more progress and one more completion listener.** Earlier ones are never removed (`Scenario.FailThenRetry`). All completion listeners run on the one push, and the result is the same as for one (`Renderer.RepeatedCompletionIsIdempotent`).
- **`setRunningState` overwrites the pending close timer without clearing it.** That timer stays pending and is counted as stray (`Renderer.SetRunningState`, `Renderer.TimerFired`).

## Model

| member | source | states |
|---|---|---|
| Json.Lookup | main.js:105 | a key is found exactly when the object has it, and the value found is that of its last occurrence |
| Json.Property | main.js:106 | a property read throws exactly on `null`/`undefined`; on an object it yields the key's last value (`Lookup`), on any other value `undefined`; a defined result comes only from an object holding the key |
| Json.Get | renderer/renderer.js:264-268 | on a truthy value, the read does not throw and yields the result |
| Json.TruthyExceptFalsyValues | renderer/renderer.js:238 | a value is falsy exactly when it is `undefined`, `null`, `false`, `0` or `""` |
| Json.StrictEqualsSameValue | renderer/renderer.js:122 | `===` holds exactly between equal values that are not arrays or objects, and is symmetric |
| Decimal.SkipSpace | main.js:120 | the result is a suffix of the input, everything dropped is white space, and it does not start with white space |
| Decimal.RunLength | main.js:120 | the length of the longest prefix made of digits of the radix |
| Decimal.ParseInt | main.js:120 | a string with no decimal digit parses to `NaN` |
| Decimal.Show | main.js:120 | the numeral `String(n)` writes below 10^21 is a non-empty run of decimal digits without a leading zero |
| Decimal.ValueOfShow | main.js:120 | the digits of `String(n)` read back as `n` |
| Decimal.ParseShow | main.js:120 | `parseInt` reads the decimal numeral of every natural `n` back as `n` |
| Decimal.ParseShowNegative | main.js:120 | `parseInt` reads a minus sign and the numeral of `m` back as `-m` |
| Decimal.Exponential | main.js:120 | the exponent form starts with the number's first digit, followed by a point or the `e` |
| Decimal.ParseExponential | main.js:120 | `parseInt` of an exponent form is the number's first digit |
| Decimal.ParseSkipsSpace | main.js:120 | leading white space never changes what `parseInt` reads |
| Decimal.ParsePlus | main.js:120 | a `+` sign before text that starts with neither white space nor a sign reads as the text alone |
| Decimal.ParseShowPlus | main.js:120 | `parseInt` reads a `+` sign and the numeral of `n` back as `n` |
| Decimal.ParseHex | main.js:120 | after `0x` or `0X` the longest run of hexadecimal digits is read in base 16, and no such digit gives `NaN` |
| Decimal.ParseHexDigits | main.js:120 | `0x` or `0X` and a non-empty string of hexadecimal digits reads as their base-16 value |
| Decimal.ShowZero | main.js:120 | the numeral starts with `0` exactly for zero |
| Decimal.ParseShowThenText | main.js:120 | a numeral followed by text that does not start with a digit reads as the numeral, except that `0` followed by `x` or `X` is a hexadecimal prefix |
| Decimal.ParseDigitsThenText | main.js:120 | any run of decimal digits, leading zeros included (`007`), followed by text that does not start with a digit reads as the digits' value, except that `0` followed by `x` or `X` is a hexadecimal prefix |
| MainProcess.ParseShowInt | main.js:120 | `parseInt(String(n))` is `n` strictly between -10^21 and 10^21; from 10^21 on it is the first digit, and below -10^21 minus the first digit of `-n` |
| MainProcess.ToText | main.js:120 | the string `parseInt` converts a value to: a string stays itself; a number reads back as itself below 10^21 in size and as its first digit from 10^21 on |
| MainProcess.DownloadTotal | main.js:120 | a non-empty `content-length` header is parsed; without one a falsy `totalSize` gives 0 and a string `totalSize` is parsed |
| MainProcess.HugeTotalReadsAsOne | main.js:120 | a `totalSize` of 10^21 bytes is read as a total of 1 |
| MainProcess.TotalFromHeader | main.js:120 | a non-empty `content-length` header decides the total, whatever `totalSize` is |
| MainProcess.TotalFromManifest | main.js:120 | without a header, a numeric `totalSize` below 10^21 in size is the total, and from 10^21 on its first digit is |
| MainProcess.TotalDefault | main.js:120 | with neither, the total is 0 and every percent is 0 |
| Progress.Percent | main.js:126 | the percent is the integer nearest to `100·downloaded/total`, halves rounded up, and 0 unless `total > 0` |
| Progress.PercentMonotone | main.js:126 | more bytes never give a smaller percent |
| Progress.PercentAtMost100 | main.js:126 | while `downloaded <= total` the percent is at most 100 |
| Progress.PercentComplete | main.js:126 | `downloaded == total` reports exactly 100 |
| Progress.RoundsNotTruncates | main.js:126 | 199 of 200 reports 100 where the floor would give 99 |
| Progress.Events | main.js:123-128 | one payload per chunk, in order; payload `i` carries the sum of chunks `0..i` and its percent |
| Progress.SumPrefixMonotone | main.js:124 | the running byte count never decreases |
| Progress.EventsMonotone | main.js:123-128 | `downloaded` and `percent` never decrease from one payload to the next |
| Progress.LastEventComplete | main.js:123-128 | when the chunks add up to the total, the last payload reports 100 |
| Progress.Stream | main.js:121-128 | the loop that accumulates `downloaded` sends exactly the payloads of `Events` |
| Preload.On | preload.js:31-41 | an allowed channel gets exactly one more listener at the end of the registry; any other channel leaves the registry as it was; no other channel's handlers change |
| Preload.OnTwiceRegistersTwice | preload.js:38-39 | registering twice on one channel runs the callback twice |
| Preload.Deliver | preload.js:39 | a push calls the channel's callbacks in registration order, each with the payload alone |
| Preload.DeliverIgnoresEvent | preload.js:39 | what the callbacks receive does not depend on the IPC event object |
| Preload.Invoke | preload.js:5-28 | each method invokes its fixed channel; `saveSettings`, `installGame` and `openExternal` pass their argument and the others pass none |
| Preload.ChannelOf | preload.js:5-28 | each method's request channel, none of which is on the push allowlist |
| Preload.ChannelOfInjective | preload.js:5-28 | no two methods share a request channel |
| MainProcess.GetGameState | main.js:101-108 | installed exactly when the file parsed to something other than `null`; then `version`/`installPath` are what the document holds; otherwise `{installed: false}` |
| MainProcess.StateRecord | main.js:134-137 | the record holds `version` (left out when `undefined`), `installPath` and `installedAt`, in that order, and each reads back as written |
| MainProcess.StateRecordRoundTrip | main.js:134-137 | decoding the record an install writes gives back installed, its version and the games directory |
| MainProcess.ExtractGame | main.js:148-159 | resolves exactly when the command succeeds; the archive's deletion follows only success and never changes the outcome |
| MainProcess.ProgressSends | main.js:127 | one progress message per payload, in order |
| MainProcess.InstallGame | main.js:111-146 | the call settles unless the response stalls, and then only as the last step; it resolves exactly when the URL parsed, the response ended, extraction resolved and the record was written; a bad URL or failed request rejects at once; the extraction step occurs exactly when the URL parsed, the response ended and the extraction resolved |
| MainProcess.InstallTail | main.js:130-144 | after the response stops: nothing for a stall, no progress, the extraction step exactly when the response ended and extraction resolved, and the record and completion message exactly when in addition the write returned |
| MainProcess.EndedTailSettles | main.js:130-142 | the `'end'` handler settles the call once, as its last step, resolving exactly when extraction resolved and the write returned |
| MainProcess.EndedTailSteps | main.js:130-142 | in the `'end'` handler the extraction step appears exactly when extraction resolved, and the record and completion message exactly when the write also returned |
| MainProcess.InstallWritesOnlyOnSuccess | main.js:130-144 | the record is written, and the completion message sent, exactly when the call resolves; the extraction step occurs exactly when the response ended and the extraction resolved |
| MainProcess.InstallWriteFails | main.js:133-141 | a write that throws rejects right after the extraction, with no completion message |
| MainProcess.InstallSuccessOrder | main.js:133-139 | on success the last four steps are extract, write, send completion, resolve |
| MainProcess.InstallProgressFirst | main.js:123-142 | every progress message comes before every other step |
| MainProcess.InstallProgress | main.js:119-128 | the progress messages are exactly the running totals of the chunks received |
| MainProcess.InstallThenGetGameState | main.js:130-139 | after a successful install, `get-game-state` on the written record reports the installed version and directory |
| MainProcess.LaunchGame | main.js:162-174 | resolves with `success: true` exactly when the shell opened the URI, and never touches the game handle |
| MainProcess.CloseGame | main.js:178-201 | the handle is cleared; with a handle the reply is success; without one `success` is "no kill error", the error's message is passed on, and with no error the message is `undefined` |
| MainProcess.NeverHoldsHandle | main.js:162-201 | no run of launches and closes gives the main process a handle, so close always reports the kill command's outcome |
| MainProcess.FetchManifest | main.js:85-98 | never settles exactly when the response never ends; resolves exactly when a body ended and parsed, with the parsed value; an unparseable body rejects with "Invalid manifest", a request error with that error |
| MainProcess.SentChannelsAllowed | main.js:54-138 | every push the main process sends is on the allowlist, and `install-dir-changed` is the one allowed channel it never sends |
| MainProcess.UnhandledMethods | main.js:74-209 | exactly `getSettings`, `saveSettings`, `pickInstallDir` and `uninstallGame` reach no handler |
| LauncherUpdate.OnSignal | renderer/renderer.js:53-86 | for each target state, which pushes lead to it: downloaded gives `ready`, not-available `idle`, available or error `available`; progress changes nothing |
| LauncherUpdate.OnButton | renderer/renderer.js:89-98 | `ready` asks to install, `available` moves to `downloading` and asks to download, the other states send nothing and stay put |
| LauncherUpdate.ReadyNeedsDownload | renderer/renderer.js:72-78 | `ready` is only reached through the downloaded push |
| LauncherUpdate.InstallNeedsConfirmation | renderer/renderer.js:89-91 | a restart-and-install request needs a click, after the download finished |
| LauncherUpdate.ErrorThenClickRetries | renderer/renderer.js:80-85 | after an error, a click starts the download again |
| Renderer.SetAppState | renderer/renderer.js:133-145 | the new state is set, `gameRunning` cleared, the held timer cancelled, the close button hidden, and nothing else changes |
| Renderer.SetRunningState | renderer/renderer.js:206-221 | `running` with `gameRunning` set and a fresh timer; a timer it replaces stays pending; the close button and every data field are kept |
| Renderer.ChannelAllowed | preload.js:32-38 | every channel the renderer listens on passes the allowlist |
| Renderer.Listen | renderer/renderer.js:248-257 | registering a renderer callback appends exactly one listener, on its own channel |
| Renderer.SetupLauncherUpdateListeners | renderer/renderer.js:53-86 | the five launcher listeners are appended in order, each on its own channel |
| Renderer.Started | renderer/renderer.js:41-49 | after `getVersion` the version is stored, exactly the five launcher listeners are appended, nothing else changes, and the manifest is requested |
| Renderer.Derive | renderer/renderer.js:120-126 | `install` exactly when nothing is installed; `play` exactly when the installed version is the same primitive value as `latestVersion`; `update` otherwise |
| Renderer.ManifestLoaded | renderer/renderer.js:101-130 | a failed fetch changes nothing and sends nothing; a fetched manifest is stored with the local state and `getGameState` is asked; a `null` manifest stores the local state and then throws, changing nothing else; a derived state cancels the held timer and hides the close button; leftover timers and the launcher version are always kept |
| Renderer.BootDerivation | renderer/renderer.js:119-126 | for every manifest but `null` (an array, string, number or boolean reads `latestVersion` as `undefined`): `install` exactly when nothing is installed, `update` exactly when the installed version is not `===` `latestVersion`, `play` exactly when it is; a `null` manifest keeps the state |
| Renderer.LoadedFromFetch | renderer/renderer.js:101-117 | read against the main process's fetch: only a body that parsed stores a manifest and asks for the local state; any other settled fetch changes nothing |
| Renderer.FetchFailureKeepsState | renderer/renderer.js:103-112 | a failed fetch leaves the whole record, `localState` included, untouched |
| Renderer.StartInstall | renderer/renderer.js:237-268 | without a manifest nothing happens; otherwise `installing`, two more listeners, and `install-game` with exactly the manifest's three fields |
| Renderer.ChannelForInjective | renderer/renderer.js:54-80 | no two renderer callbacks listen on the same channel |
| Renderer.StartInstallRegisters | renderer/renderer.js:247-261 | each attempt adds one completion and one progress callback and keeps the earlier ones |
| Renderer.MainAction | renderer/renderer.js:188-194 | `play` asks to launch, `install`/`update` start an install, `loading`/`installing`/`running` do nothing |
| Renderer.LaunchSettled | renderer/renderer.js:197-221 | a successful launch enters `running` with `gameRunning` and a fresh held timer, counts a replaced timer as stray, and keeps the close button and every data field; a failed one changes nothing |
| Renderer.InstallSettled | renderer/renderer.js:263-272 | a rejected install always falls back to `install`, cancels the held timer, hides the close button and keeps the data fields; success changes nothing here |
| Renderer.TimerFired | renderer/renderer.js:215-220 | a pending timer that fires is used up and shows the close button exactly when it already showed or the game is marked running; a timer that is not pending changes nothing; no other field, the launcher version included, is touched |
| Renderer.CloseSettled | renderer/renderer.js:224-234 | whatever `closeGame` did, the result is `play` with `gameRunning` cleared, no timer held and the button hidden |
| Renderer.Apply | renderer/renderer.js:248-261 | the completion callback refreshes the local state and enters `play`, or stops before `play` on a missing payload; each launcher callback moves the update machine by its own signal and sends nothing; the game progress callback changes nothing |
| Renderer.RunCalls | preload.js:39 | running a push's callbacks never changes the registry |
| Renderer.Pushed | preload.js:39 | a push never changes the registry |
| Renderer.RepeatedCompletionIsIdempotent | renderer/renderer.js:257-261 | any number of completion callbacks end as one does, each asking for the local state once |
| Renderer.LauncherPushMoves | renderer/renderer.js:53-86 | a push on a launcher channel with its one callback moves the update machine by that signal and sends nothing |
| Renderer.LauncherListenersHandlers | renderer/renderer.js:53-86 | after the launcher listeners alone, each launcher channel has exactly its own callback |
| Renderer.LauncherButton | renderer/renderer.js:89-98 | the update button moves the update machine as `OnButton` says; `ready` sends `installLauncherUpdate`, `available` sends `downloadLauncherUpdate`, `idle` and `downloading` send nothing |
| Renderer.Step | renderer/renderer.js:41-273 | no event removes a listener, and only the boot and the main button add any |
| Renderer.InitInv | renderer/renderer.js:5-13 | the initial record satisfies the invariant |
| Renderer.WiredOn | renderer/renderer.js:248-257 | registering a callback on its own channel keeps the registry wired |
| Renderer.RunCallsInv | renderer/renderer.js:53-86 | the listeners of a push preserve the invariant |
| Renderer.HandlersPrefix | preload.js:38-39 | a registry that extends another has at least its handlers on every channel |
| Renderer.WiredAppend | preload.js:38-39 | joining two wired registries gives a wired registry |
| Renderer.LauncherListenersWired | renderer/renderer.js:53-86 | every launcher listener sits on its callback's channel |
| Renderer.BootInv | renderer/renderer.js:41-49 | the boot step preserves the invariant |
| Renderer.StartInstallWired | renderer/renderer.js:248-257 | an install attempt keeps every listener on its own channel |
| Renderer.StartInstallInv | renderer/renderer.js:237-261 | starting an install preserves the invariant, with a completion listener in place |
| Renderer.MainClickedInv | renderer/renderer.js:188-194 | the main button preserves the invariant |
| Renderer.LoadedInv | renderer/renderer.js:101-130 | the boot's loading step preserves the invariant |
| Renderer.StepInv | renderer/renderer.js:41-273 | every event preserves the invariant |
| Renderer.RunInv | renderer/renderer.js:133-273 | in every reachable record, `gameRunning` holds exactly in `running`, the close button shows only while it holds, every listener is on its channel, and `installing` has a completion listener |
| Renderer.ReachableCloseButton | renderer/renderer.js:206-234 | in every record reachable from the start, the close button shows only in `running`, and the game is marked running exactly there |
| Renderer.ListenersOnlyGrow | preload.js:38-39 | no run of events removes a listener |
| Renderer.CompletionEndsInPlay | renderer/renderer.js:257-261 | in a reachable record with a completion listener, the completion push ends in `play` with the refreshed local state |
| Renderer.HandlersOnChannel | preload.js:38-39 | on a wired registry, every handler found on a callback's channel is that callback |
| Scenario.BootDerives | renderer/renderer.js:119-126 | booting against the example manifest stores it and derives the state from the local record |
| Scenario.BootedLauncherPush | renderer/renderer.js:41-86 | after boot, each launcher push moves the update machine from `idle` by its signal and changes nothing else |
| Scenario.BootStates | renderer/renderer.js:119-126 | nothing installed boots to `install`, 1.1.0 to `update`, 1.2.0 to `play` |
| Scenario.InstallFromInstall | renderer/renderer.js:191-192 | a click in `install` with a manifest enters `installing` |
| Scenario.ReachInstalling | renderer/renderer.js:237-239 | `installing` is reachable from the start |
| Scenario.LaunchFromPlay | renderer/renderer.js:189-208 | a click in `play` and a successful launch enter `running` |
| Scenario.ReachRunning | renderer/renderer.js:197-208 | `running` is reachable from the start |
| Scenario.AllStatesReachable | renderer/renderer.js:6 | each of the six app states occurs in some run |
| Scenario.UpdateBooted | renderer/renderer.js:119-126 | an install of 1.1.0 boots to `update` in a record satisfying the invariant |
| Scenario.OptsOfManifest | renderer/renderer.js:264-268 | the example manifest's three fields read as expected |
| Scenario.ClickSendsOpts | renderer/renderer.js:263-268 | the update click sends `install-game` with the manifest's fields and leaves a completion listener |
| Scenario.TwoChunks | main.js:123-127 | two 500-byte chunks of 1000 report 50% then 100% |
| Scenario.DownloadOfUpdate | main.js:119-139 | the install reports 50% and 100%, writes a record that reads back as 1.2.0, and resolves |
| Scenario.CompletionAfterUpdate | renderer/renderer.js:257-261 | the completion push ends in `play`, and a fresh boot would derive `play` too |
| Scenario.UpdateScenario | renderer/renderer.js:237-268 | from end to end, an update goes from `update` to `play` with the new version recorded |
| Scenario.FailedAttempt | renderer/renderer.js:269-272 | a failed attempt falls back to `install` and keeps the new listeners |
| Scenario.RetryAfterFailure | renderer/renderer.js:247-261 | the retry enters `installing` and adds one more completion listener |
| Scenario.FailThenRetry | renderer/renderer.js:247-272 | after a failure and a retry, two more completion listeners are registered |
| Scenario.BootedHasNoCompletionListener | renderer/renderer.js:53-86 | after boot, no completion listener exists yet |
| Scenario.FailedUpdateScenario | renderer/renderer.js:263-272 | a failed update lands in `install` although a fresh boot would derive `update`, and the retry leaves two completion listeners |
| Scenario.DoubleClickLaunchesTwice | renderer/renderer.js:188-204 | two clicks in `play` send two launch requests, because launching has no guard |
| Scenario.CloseButtonTiming | renderer/renderer.js:215-234 | the timer shows the close button while the game runs, shows nothing after a close, and closing ends in `play` |

## Left out

- DOM updates, labels, the status dot, the changelog drawer and `renderChangelog` are display only. A throw inside `renderChangelog` comes after every state change, so it changes nothing.
- Window creation, the app lifecycle, the window-control handlers and `get-app-version` are not modelled. `get-app-version` shows up only as the `Boot` event's version string.
- The launcher's own download is not modelled: `autoUpdater` and its floating-point `percent` (main.js:54-75). Only the pushes it causes are modelled, as `LauncherUpdate.Signal`.
- `shell.openExternal`, `exec`, the HTTP client and the file system are not executed. Their outcomes are parameters: `openError`, `killError`, `Transfer` with its `StreamEnd`, `commandOk`/`unlinkOk`, `writeOk` and `StateFile`. The archive's write stream is the exception (next line).
- `fs.createWriteStream` and `file.write`/`file.end` are left out. The archive is extracted after `end` without waiting for the write stream to flush, a race the model does not represent. Nothing listens for the write stream's `error` either, so a games directory that cannot be written raises in the main process instead of rejecting.
- MainProcess.FetchManifest: a response that breaks off mid-body emits an `error` nobody listens for. The model only says that the call never settles, not what the unhandled event does to the main process.
- A partly written `installed.json` after a failed write is not modelled. The model only records that the write threw; what `get-game-state` later reads is whatever `StateFile` says.
- A non-200 response is streamed and extracted like any other. Its failure shows up only through `commandOk`.
- Destructuring an `undefined` argument in `install-game` is not modelled, because the renderer always passes an object.
- `getSettings`, `saveSettings`, `pickInstallDir`, `uninstallGame` and the `install-dir-changed` push have no handler in main.js. They appear only in the channel mapping.
- `JSON.parse` and `JSON.stringify` are treated as given. Documents are modelled as parsed values, and the record round trip assumes that parsing the stringified record gives it back.
- Numbers are integers only. Fractional numbers in a manifest are not represented. `JSON.parse` rounds an integer above 2^53 to a double, which the model does not. The exponent form `String` writes from 10^21 on is built from the exact integer's digits, not from those of the rounded double.
- MainProcess.TotalFromManifest: the total is exact for every integer, while JavaScript's arithmetic on a `totalSize` above 2^53 works on a rounded double.
- Decimal.ParseInt: its own ensures states only the no-digit case; white space, the `+` sign, the `0x` prefix and trailing text after any digit run (leading zeros included) are stated by `Decimal.ParseSkipsSpace`, `ParsePlus`, `ParseHex` and `ParseDigitsThenText`. It skips the common white space characters rather than the full Unicode class. It returns the exact integer, while `parseInt` returns a double that is rounded above 2^53, for decimal and hexadecimal digits alike.
- Progress.Percent: the floating-point error of `(downloaded / total) * 100` is ignored. The value is the exact rounding of the rational.
- Renderer.Apply: the completion listener's `await getGameState()` is collapsed into the push. Its answer is the `refreshed` parameter of the `Push` event, so no other event can run between the push and the answer.
- Exceptions in listeners are not modelled beyond the completion listener. There the property read of `data.version` comes after the `await`, so its throw only rejects that listener's own promise and the remaining listeners still run. A listener that threw synchronously would stop the listeners registered after it on that push. The model assumes the launcher listeners' DOM updates never throw.

=== FILE: decimal.dfy ===
/**
 * JavaScript's `parseInt(s)` with no radix argument, as `install-game`
 * applies it to the `content-length` header or to the manifest's
 * `totalSize`: leading white space is skipped, one sign is accepted, a
 * `0x`/`0X` prefix switches to base 16, and the longest run of digits is
 * read. No digits at all gives `NaN`, modelled as `None`. Also the two
 * forms `String(n)` writes an integer in: its decimal numeral, and from
 * 10^21 on the exponent form.
 */
module Decimal {
  import opened Wrappers

  /** The white space `parseInt` skips (the ASCII and common Unicode ones). */
  predicate IsSpace(c: char) {
    c == ' ' || c == '\t' || c == '\n' || c == '\r' || c == '\U{000B}' || c == '\U{000C}'
    || c == '\U{00A0}' || c == '\U{2028}' || c == '\U{2029}' || c == '\U{FEFF}'
  }

  predicate IsDecimalDigit(c: char) {
    '0' <= c <= '9'
  }

  /** The value of `c` as a digit of `radix` (10 or 16), or -1 when it is not one. */
  function DigitValue(c: char, radix: nat): (v: int)
    ensures -1 <= v < radix
    ensures radix == 10 ==> (v >= 0 <==> IsDecimalDigit(c))
  {
    var d := if '0' <= c <= '9' then c as int - '0' as int
             else if 'a' <= c <= 'z' then c as int - 'a' as int + 10
             else if 'A' <= c <= 'Z' then c as int - 'A' as int + 10
             else -1;
    if 0 <= d < radix then d else -1
  }

  /** `s` with its leading white space removed. */
  function SkipSpace(s: string): (t: string)
    ensures |t| <= |s| && t == s[|s| - |t|..]
    ensures |t| > 0 ==> !IsSpace(t[0])
    ensures forall i :: 0 <= i < |s| - |t| ==> IsSpace(s[i])
  {
    if |s| > 0 && IsSpace(s[0]) then SkipSpace(s[1..]) else s
  }

  /** The length of the longest prefix of `s` made of digits of `radix`. */
  function RunLength(s: string, radix: nat): (k: nat)
    ensures k <= |s|
    ensures forall i :: 0 <= i < k ==> DigitValue(s[i], radix) >= 0
    ensures k < |s| ==> DigitValue(s[k], radix) < 0
  {
    if |s| == 0 || DigitValue(s[0], radix) < 0 then 0 else 1 + RunLength(s[1..], radix)
  }

  /** The number written by the digit string `s` in base `radix`. */
  function Value(s: string, radix: nat): nat
    requires forall i :: 0 <= i < |s| ==> DigitValue(s[i], radix) >= 0
  {
    if |s| == 0 then 0
    else
      var prefix := s[..|s| - 1];
      assert forall i :: 0 <= i < |prefix| ==> prefix[i] == s[i];
      var high := Value(prefix, radix);
      MulNonNegative(high, radix);
      high * radix + DigitValue(s[|s| - 1], radix)
  }

  lemma MulNonNegative(a: nat, b: nat)
    ensures a * b >= 0
  {
  }

  /** The leading digit run of `s` read in `radix`, or `NaN` when there is none. */
  function ReadRun(s: string, radix: nat): (r: Option<nat>)
    ensures r.None? <==> (|s| == 0 || DigitValue(s[0], radix) < 0)
  {
    var k := RunLength(s, radix);
    if k == 0 then None else Some(Value(s[..k], radix))
  }

  predicate HasHexPrefix(u: string) {
    |u| >= 2 && u[0] == '0' && (u[1] == 'x' || u[1] == 'X')
  }

  /** The unsigned part: a hexadecimal run after `0x`/`0X`, else a decimal run. */
  function ParseUnsigned(u: string): (r: Option<nat>)
    ensures (forall i :: 0 <= i < |u| ==> !IsDecimalDigit(u[i])) ==> r.None?
  {
    if HasHexPrefix(u) then ReadRun(u[2..], 16) else ReadRun(u, 10)
  }

  /** One optional sign, then the unsigned part. */
  function ParseSigned(t: string): (r: Option<int>)
    ensures (forall i :: 0 <= i < |t| ==> !IsDecimalDigit(t[i])) ==> r.None?
  {
    if |t| > 0 && t[0] == '-' then
      match ParseUnsigned(t[1..])
      case None => None
      case Some(m) => Some(0 - m as int)
    else if |t| > 0 && t[0] == '+' then
      match ParseUnsigned(t[1..])
      case None => None
      case Some(m) => Some(m as int)
    else
      match ParseUnsigned(t)
      case None => None
      case Some(m) => Some(m as int)
  }

  /** `parseInt(s)`; `None` is `NaN`. A string without a decimal digit is `NaN`. */
  function ParseInt(s: string): (r: Option<int>)
    ensures (forall i :: 0 <= i < |s| ==> !IsDecimalDigit(s[i])) ==> r.None?
  {
    var t := SkipSpace(s);
    assert forall i :: 0 <= i < |t| ==> t[i] == s[|s| - |t| + i];
    ParseSigned(t)
  }

  /** The decimal digit for `d`. */
  function DigitChar(d: nat): (c: char)
    requires d < 10
    ensures IsDecimalDigit(c) && DigitValue(c, 10) == d
  {
    ('0' as int + d) as char
  }

  /** The shortest decimal numeral for `n`, as `String(n)` writes it below 10^21. */
  function Show(n: nat): (s: string)
    ensures |s| >= 1
    ensures forall i :: 0 <= i < |s| ==> IsDecimalDigit(s[i])
    ensures |s| > 1 ==> s[0] != '0'
  {
    if n < 10 then [DigitChar(n)] else Show(n / 10) + [DigitChar(n % 10)]
  }

  lemma {:induction false} ValueOfShow(n: nat)
    ensures Value(Show(n), 10) == n
  {
    if n >= 10 {
      var s := Show(n / 10);
      ValueOfShow(n / 10);
      assert (s + [DigitChar(n % 10)])[..|s|] == s;
    }
  }

  lemma {:induction false} RunLengthOfDigits(s: string, radix: nat)
    requires forall i :: 0 <= i < |s| ==> DigitValue(s[i], radix) >= 0
    ensures RunLength(s, radix) == |s|
  {
    if |s| > 0 {
      RunLengthOfDigits(s[1..], radix);
    }
  }

  /** `parseInt` reads the decimal numeral of every natural number `n` back as `n`. */
  lemma ParseShow(n: nat)
    ensures ParseInt(Show(n)) == Some(n)
  {
    ParseUnsignedShow(n);
    ParseLeadingDigit(Show(n), n);
  }

  /** `parseInt` reads a minus sign followed by the numeral of `m` back as `-m`. */
  lemma ParseShowNegative(m: nat)
    ensures ParseInt(Negated(Show(m))) == Some(-(m as int))
  {
    ParseUnsignedShow(m);
    ParseNegated(Show(m), m);
  }

  lemma ParseUnsignedShow(n: nat)
    ensures ParseUnsigned(Show(n)) == Some(n)
  {
    var s := Show(n);
    assert !HasHexPrefix(s);
    RunLengthOfDigits(s, 10);
    assert s[..|s|] == s;
    ValueOfShow(n);
  }

  /** A string that starts with a digit is read by `parseInt` as its unsigned part. */
  lemma ParseLeadingDigit(u: string, v: nat)
    requires |u| > 0 && IsDecimalDigit(u[0]) && ParseUnsigned(u) == Some(v)
    ensures ParseInt(u) == Some(v)
  {
    assert !IsSpace(u[0]);
    assert SkipSpace(u) == u;
  }

  /** `u` with a minus sign in front. */
  function Negated(u: string): string {
    "-" + u
  }

  /** A minus sign before a string that starts with a digit negates its unsigned part. */
  lemma ParseNegated(u: string, v: nat)
    requires |u| > 0 && IsDecimalDigit(u[0]) && ParseUnsigned(u) == Some(v)
    ensures ParseInt(Negated(u)) == Some(-(v as int))
  {
    var t := Negated(u);
    assert !IsSpace(t[0]);
    assert SkipSpace(t) == t;
    assert t[1..] == u;
    assert ParseSigned(t) == Some(0 - v);
  }

  // ─── what else parseInt accepts ─────────────────────────────────────────

  lemma {:induction false} SkipSpacePrefix(w: string, t: string)
    requires forall i :: 0 <= i < |w| ==> IsSpace(w[i])
    ensures SkipSpace(w + t) == SkipSpace(t)
  {
    if |w| > 0 {
      assert (w + t)[0] == w[0] && (w + t)[1..] == w[1..] + t;
      SkipSpacePrefix(w[1..], t);
    } else {
      assert w + t == t;
    }
  }

  /** Leading white space never changes what `parseInt` reads. */
  lemma ParseSkipsSpace(w: string, t: string)
    requires forall i :: 0 <= i < |w| ==> IsSpace(w[i])
    ensures ParseInt(w + t) == ParseInt(t)
  {
    SkipSpacePrefix(w, t);
  }

  /** A plus sign before a string that starts with neither white space nor a sign changes nothing. */
  lemma ParsePlus(u: string)
    requires |u| > 0 ==> !IsSpace(u[0]) && u[0] != '+' && u[0] != '-'
    ensures ParseInt("+" + u) == ParseInt(u)
  {
    var t := "+" + u;
    assert SkipSpace(t) == t;
    assert t[1..] == u;
    if |u| > 0 {
      assert SkipSpace(u) == u;
    }
  }

  /** `parseInt` reads a plus sign followed by the numeral of `n` back as `n`. */
  lemma ParseShowPlus(n: nat)
    ensures ParseInt("+" + Show(n)) == Some(n)
  {
    ParsePlus(Show(n));
    ParseShow(n);
  }

  lemma HexPrefix(p: string, h: string)
    requires p == "0x" || p == "0X"
    ensures ParseSigned(p + h) == ParseUnsigned(p + h)
    ensures ParseUnsigned(p + h) == ReadRun(h, 16)
  {
    var t := p + h;
    assert t[0] == '0' && (t[1] == 'x' || t[1] == 'X');
    assert t[2..] == h;
  }

  /**
   * After `0x` or `0X`, `parseInt` reads the longest run of hexadecimal
   * digits in base 16, and `NaN` when there is none.
   */
  lemma ParseHex(p: string, h: string)
    requires p == "0x" || p == "0X"
    ensures ParseInt(p + h) == ReadRun(h, 16)
  {
    var t := p + h;
    assert t[0] == '0';
    assert SkipSpace(t) == t;
    HexPrefix(p, h);
  }

  /** `0x` or `0X` and a string of hexadecimal digits reads as their base-16 value. */
  lemma ParseHexDigits(p: string, h: string)
    requires p == "0x" || p == "0X"
    requires |h| > 0 && forall i :: 0 <= i < |h| ==> DigitValue(h[i], 16) >= 0
    ensures ParseInt(p + h) == Some(Value(h, 16))
  {
    ParseHex(p, h);
    RunLengthOfDigits(h, 16);
    assert h[..|h|] == h;
  }

  lemma {:induction false} RunLengthOfPrefix(d: string, t: string, radix: nat)
    requires forall i :: 0 <= i < |d| ==> DigitValue(d[i], radix) >= 0
    requires |t| > 0 ==> DigitValue(t[0], radix) < 0
    ensures RunLength(d + t, radix) == |d|
  {
    if |d| > 0 {
      assert (d + t)[1..] == d[1..] + t;
      RunLengthOfPrefix(d[1..], t, radix);
    } else {
      assert d + t == t;
    }
  }

  /** Only the numeral of zero is `0`. */
  lemma ShowZero(n: nat)
    ensures Show(n)[0] == '0' <==> n == 0
  {
    if n >= 10 {
      ShowStartsWithLeadingDigit(n);
    }
  }

  /**
   * `parseInt` stops at the first character that is not a digit: a numeral
   * followed by anything else reads as the numeral, except that `0`
   * followed by `x` or `X` is a hexadecimal prefix.
   */
  lemma ParseShowThenText(n: nat, t: string)
    requires |t| > 0 ==> !IsDecimalDigit(t[0]) && !(n == 0 && (t[0] == 'x' || t[0] == 'X'))
    ensures ParseInt(Show(n) + t) == Some(n)
  {
    var d := Show(n);
    var u := d + t;
    RunLengthOfPrefix(d, t, 10);
    assert u[..|d|] == d;
    ValueOfShow(n);
    ShowZero(n);
    if n >= 10 {
      ShowStartsWithLeadingDigit(n);
    }
    assert !HasHexPrefix(u);
    ParseLeadingDigit(u, n);
  }

  /**
   * Any decimal numeral, leading zeros included (`007`), followed by text
   * that does not start with a digit reads as its value, except that `0`
   * followed by `x` or `X` is a hexadecimal prefix.
   */
  lemma ParseDigitsThenText(d: string, t: string)
    requires |d| > 0 && forall i :: 0 <= i < |d| ==> IsDecimalDigit(d[i])
    requires |t| > 0 ==> !IsDecimalDigit(t[0]) && !(d == "0" && (t[0] == 'x' || t[0] == 'X'))
    ensures ParseInt(d + t) == Some(Value(d, 10))
  {
    UnsignedDigitsThenText(d, t);
    assert (d + t)[0] == d[0];
    ParseLeadingDigit(d + t, Value(d, 10));
  }

  lemma UnsignedDigitsThenText(d: string, t: string)
    requires |d| > 0 && forall i :: 0 <= i < |d| ==> IsDecimalDigit(d[i])
    requires |t| > 0 ==> !IsDecimalDigit(t[0]) && !(d == "0" && (t[0] == 'x' || t[0] == 'X'))
    ensures ParseUnsigned(d + t) == Some(Value(d, 10))
  {
    var u := d + t;
    NoHexPrefix(d, t);
    RunLengthOfPrefix(d, t, 10);
    assert u[..|d|] == d;
  }

  lemma NoHexPrefix(d: string, t: string)
    requires |d| > 0 && forall i :: 0 <= i < |d| ==> IsDecimalDigit(d[i])
    requires |t| > 0 ==> !(d == "0" && (t[0] == 'x' || t[0] == 'X'))
    ensures !HasHexPrefix(d + t)
  {
    var u := d + t;
    if |d| == 1 {
      assert d == [u[0]];
    } else {
      assert u[1] == d[1];
    }
  }

  // ─── exponent form ──────────────────────────────────────────────────────

  /** The first decimal digit of `m`. */
  function LeadingDigit(m: nat): (d: nat)
    ensures d < 10
    ensures m > 0 ==> d > 0
  {
    if m < 10 then m else LeadingDigit(m / 10)
  }

  lemma {:induction false} ShowStartsWithLeadingDigit(m: nat)
    ensures Show(m)[0] == DigitChar(LeadingDigit(m))
    ensures m >= 10 ==> |Show(m)| >= 2
  {
    if m >= 10 {
      ShowStartsWithLeadingDigit(m / 10);
    }
  }

  /** `s` without its trailing zeros. */
  function StripTrailingZeros(s: string): (t: string)
    ensures t <= s
    ensures |t| > 0 ==> t[|t| - 1] != '0'
    ensures forall i :: |t| <= i < |s| ==> s[i] == '0'
  {
    if |s| > 0 && s[|s| - 1] == '0' then StripTrailingZeros(s[..|s| - 1]) else s
  }

  /**
   * The exponent form `String(m)` takes from 10^21 on: the first digit, a
   * point and the remaining significant digits when there are any, then
   * `e+` and the exponent (`1e+21`, `1.5e+21`).
   */
  function Exponential(m: nat): (e: string)
    requires m >= 10
    ensures |e| >= 2 && e[0] == DigitChar(LeadingDigit(m))
    ensures e[1] == '.' || e[1] == 'e'
  {
    var s := Show(m);
    ShowStartsWithLeadingDigit(m);
    var frac := StripTrailingZeros(s[1..]);
    [s[0]] + (if |frac| == 0 then "" else "." + frac) + "e+" + Show(|s| - 1)
  }

  /** `parseInt` stops at the point or the `e`: only the first digit of an exponent form is read. */
  lemma ParseUnsignedExponential(m: nat)
    requires m >= 10
    ensures ParseUnsigned(Exponential(m)) == Some(LeadingDigit(m))
  {
    var e := Exponential(m);
    assert !HasHexPrefix(e);
    assert DigitValue(e[1], 10) < 0;
    assert RunLength(e[1..], 10) == 0;
    assert RunLength(e, 10) == 1;
    assert e[..1] == [e[0]];
    assert Value([e[0]][..0], 10) == 0;
  }

  /** `parseInt(String(m))` for `m` in exponent form is the leading digit. */
  lemma ParseExponential(m: nat)
    requires m >= 10
    ensures ParseInt(Exponential(m)) == Some(LeadingDigit(m))
  {
    ParseUnsignedExponential(m);
    ParseLeadingDigit(Exponential(m), LeadingDigit(m));
  }
}

=== FILE: json.dfy ===
/**
 * The JavaScript values the launcher reads out of JSON documents (the manifest,
 * the installed.json record, IPC payloads), together with the three pieces of
 * JavaScript semantics the launcher's branches depend on: truthiness, strict
 * equality and property reads.
 *
 * Numbers are restricted to integers; the launcher only ever compares, adds or
 * divides byte counts and version strings.
 */
module Json {
  import opened Wrappers

  /** A value as produced by `JSON.parse`. */
  datatype Json =
    | JNull
    | JBool(b: bool)
    | JNum(n: int)
    | JStr(s: string)
    | JArr(items: seq<Json>)
    | JObj(fields: seq<(string, Json)>)

  /** The result of a property read; `None` is `undefined`. */
  type Value = Option<Json>

  /** The keys of an object, in document order. */
  function Keys(fields: seq<(string, Json)>): (ks: seq<string>)
    ensures |ks| == |fields|
    ensures forall i :: 0 <= i < |fields| ==> ks[i] == fields[i].0
  {
    if |fields| == 0 then [] else Keys(fields[..|fields| - 1]) + [fields[|fields| - 1].0]
  }

  /**
   * Reads `key` from a parsed object. When a document repeats a key,
   * `JSON.parse` keeps the last occurrence, so the search runs from the end.
   */
  function Lookup(fields: seq<(string, Json)>, key: string): (r: Value)
    ensures r.Some? <==> key in Keys(fields)
    ensures r.Some? ==> exists i :: 0 <= i < |fields| && fields[i] == (key, r.value)
                                    && forall j :: i < j < |fields| ==> fields[j].0 != key
  {
    if |fields| == 0 then None
    else if fields[|fields| - 1].0 == key then Some(fields[|fields| - 1].1)
    else Lookup(fields[..|fields| - 1], key)
  }

  /** JavaScript truthiness of a value (`undefined`, `null`, `false`, `0` and `""` are falsy). */
  predicate Truthy(v: Value) {
    match v
    case None => false
    case Some(JNull) => false
    case Some(JBool(b)) => b
    case Some(JNum(n)) => n != 0
    case Some(JStr(s)) => s != ""
    case Some(JArr(_)) => true
    case Some(JObj(_)) => true
  }

  /** The values that are falsy in JavaScript: every other value is truthy. */
  lemma TruthyExceptFalsyValues(v: Value)
    ensures !Truthy(v) <==> v in {None, Some(JNull), Some(JBool(false)), Some(JNum(0)), Some(JStr(""))}
  {
  }

  /** An array or an object: a value `===` compares by reference. */
  predicate IsReference(v: Value) {
    v.Some? && (v.value.JArr? || v.value.JObj?)
  }

  /**
   * JavaScript `===` between two values that come from separate parses or
   * IPC messages: primitives compare by value, while arrays and objects are
   * distinct references and therefore never equal.
   */
  predicate StrictEquals(a: Value, b: Value) {
    match (a, b)
    case (None, None) => true
    case (Some(x), Some(y)) => !x.JArr? && !x.JObj? && x == y
    case _ => false
  }

  /**
   * `===` is sameness of value for `undefined`, `null`, booleans, numbers and
   * strings, and never holds for arrays and objects; it is symmetric.
   */
  lemma StrictEqualsSameValue(a: Value, b: Value)
    ensures StrictEquals(a, b) <==> a == b && !IsReference(a)
    ensures StrictEquals(a, b) <==> StrictEquals(b, a)
  {
  }

  /** The outcome of reading a property: a value, or the TypeError thrown on `null`/`undefined`. */
  datatype Access = Read(value: Value) | TypeError

  /**
   * `v.key` for a fixed, non-index key. Reading from `null` or `undefined`
   * throws; reading from an object yields its field; every other value has
   * no such own property and yields `undefined`.
   */
  function Property(v: Value, key: string): (r: Access)
    ensures r.TypeError? <==> v.None? || v == Some(JNull)
    ensures r.Read? && r.value.Some? ==> v.Some? && v.value.JObj? && key in Keys(v.value.fields)
    ensures v.Some? && v.value.JObj? ==> r == Read(Lookup(v.value.fields, key))
    ensures v.Some? && !v.value.JObj? && v.value != JNull ==> r == Read(None)
  {
    match v
    case None => TypeError
    case Some(JNull) => TypeError
    case Some(JObj(fs)) => Read(Lookup(fs, key))
    case Some(_) => Read(None)
  }

  /** `v.key` where `v` is known not to be `null`/`undefined`. */
  function Get(v: Value, key: string): (r: Value)
    requires Truthy(v)
    ensures Property(v, key) == Read(r)
  {
    match v
    case Some(JObj(fs)) => Lookup(fs, key)
    case _ => None
  }
}

=== FILE: launcher_update.dfy ===
/**
 * The launcher's own update machine in the renderer (renderer.js:53-98):
 * `idle | available | downloading | ready`, driven by five pushed signals
 * and one button. DOM updates are left out; only the state and the request
 * the button issues are kept.
 */
module LauncherUpdate {

  datatype UpdateState = Idle | Available | Downloading | Ready

  /** The pushes `setupLauncherUpdateListeners` listens to. */
  datatype Signal =
    | UpdateAvailable      // 'launcher-update-available'
    | UpdateNotAvailable   // 'launcher-update-not-available'
    | DownloadProgress     // 'launcher-download-progress'
    | UpdateDownloaded     // 'launcher-update-downloaded'
    | UpdateError          // 'launcher-update-error'

  /**
   * A listener's effect on the state. Every signal but progress sets the
   * state whatever it was; an error makes the update available again so
   * the button retries.
   */
  function OnSignal(u: UpdateState, sig: Signal): (r: UpdateState)
    ensures r == Ready <==> sig == UpdateDownloaded || (sig == DownloadProgress && u == Ready)
    ensures r == Idle <==> sig == UpdateNotAvailable || (sig == DownloadProgress && u == Idle)
    ensures r == Available <==> sig == UpdateAvailable || sig == UpdateError
                                || (sig == DownloadProgress && u == Available)
    ensures r == Downloading <==> sig == DownloadProgress && u == Downloading
  {
    match sig
    case UpdateAvailable => Available
    case UpdateNotAvailable => Idle
    case DownloadProgress => u
    case UpdateDownloaded => Ready
    case UpdateError => Available
  }

  /** The request the button sends to the main process. */
  datatype Request = RequestDownload | RequestInstall

  /**
   * `handleLauncherUpdate`: in `ready` it asks to quit and install, in
   * `available` it moves to `downloading` and asks to download, and
   * otherwise it does nothing.
   */
  function OnButton(u: UpdateState): (r: (UpdateState, seq<Request>))
    ensures r.1 == [RequestInstall] <==> u == Ready
    ensures r.1 == [RequestDownload] <==> u == Available
    ensures r.1 == [] <==> u == Idle || u == Downloading
    ensures r.0 == Downloading <==> u == Available || u == Downloading
    ensures u != Available ==> r.0 == u
  {
    match u
    case Ready => (u, [RequestInstall])
    case Available => (Downloading, [RequestDownload])
    case _ => (u, [])
  }

  datatype Input = Push(signal: Signal) | Click

  function Step(u: UpdateState, i: Input): (UpdateState, seq<Request>) {
    match i
    case Push(sig) => (OnSignal(u, sig), [])
    case Click => OnButton(u)
  }

  /** The final state and every request sent, in order. */
  function Run(u: UpdateState, inputs: seq<Input>): (UpdateState, seq<Request>)
    decreases |inputs|
  {
    if |inputs| == 0 then (u, [])
    else
      var first := Step(u, inputs[0]);
      var rest := Run(first.0, inputs[1..]);
      (rest.0, first.1 + rest.1)
  }

  /** The machine only reaches `ready` through the 'update downloaded' push. */
  lemma {:induction false} ReadyNeedsDownload(u: UpdateState, inputs: seq<Input>)
    requires u != Ready
    requires Run(u, inputs).0 == Ready
    ensures Push(UpdateDownloaded) in inputs
    decreases |inputs|
  {
    if |inputs| > 0 {
      var u1 := Step(u, inputs[0]).0;
      if inputs[0] != Push(UpdateDownloaded) {
        assert u1 != Ready;
        ReadyNeedsDownload(u1, inputs[1..]);
      }
    }
  }

  /**
   * Installing the launcher update is never automatic: a restart request
   * needs a click, made after the download finished.
   */
  lemma {:induction false} InstallNeedsConfirmation(u: UpdateState, inputs: seq<Input>)
    requires RequestInstall in Run(u, inputs).1
    ensures Click in inputs
    ensures u == Ready || Push(UpdateDownloaded) in inputs
    decreases |inputs|
  {
    if |inputs| > 0 {
      var u1 := Step(u, inputs[0]).0;
      if RequestInstall in Step(u, inputs[0]).1 {
        assert inputs[0] == Click;
      } else {
        assert RequestInstall in Run(u1, inputs[1..]).1;
        InstallNeedsConfirmation(u1, inputs[1..]);
        if u1 == Ready && u != Ready {
          assert inputs[0] == Push(UpdateDownloaded);
        }
      }
    }
  }

  /** After an error the button retries the download. */
  lemma ErrorThenClickRetries(u: UpdateState)
    ensures Run(u, [Push(UpdateError), Click]) == (Downloading, [RequestDownload])
  {
    assert Run(Available, [Click]) == (Downloading, [RequestDownload]) by {
      assert [Click][1..] == [];
      assert [RequestDownload] + [] == [RequestDownload];
    }
    assert [Push(UpdateError), Click][1..] == [Click];
    assert [] + [RequestDownload] == [RequestDownload];
  }
}

=== FILE: main_process.dfy ===
/**
 * The pure logic of the Electron main process (main.js): decoding the
 * installed.json record, the install pipeline's download total, progress
 * and ordering, the extraction contract, the launch and close handlers,
 * and the manifest fetch.
 *
 * Network transfers, file reads and writes and the `unzip`/`powershell`/
 * `taskkill`/`pkill` commands are not executed: their outcomes are
 * parameters. Documents are modelled after `JSON.parse`, as `Json` values.
 */
module MainProcess {
  import opened Wrappers
  import opened Json
  import Decimal
  import Progress
  import Preload

  // ─── get-game-state ──────────────────────────────────────────────────────

  /** The reply of `get-game-state`: `{installed, version, installPath}`. */
  datatype LocalState = LocalState(installed: bool, version: Value, installPath: Value)

  /** `{installed: false}`: both other properties read as `undefined`. */
  const NotInstalled := LocalState(false, None, None)

  /** installed.json as the handler finds it. */
  datatype StateFile = Missing | Unparseable | Parsed(doc: Json)

  /**
   * `get-game-state` (main.js:101-108). A missing file or one that does not
   * parse gives `{installed: false}`; so does a file holding `null`, because
   * reading `d.version` throws inside the `try`. Any other document counts
   * as installed, with `version` and `installPath` copied from it. The
   * handler never checks that a game executable exists.
   */
  function GetGameState(file: StateFile): (r: LocalState)
    ensures r.installed <==> file.Parsed? && file.doc != JNull
    ensures !r.installed ==> r == NotInstalled
    ensures r.installed ==> (Property(Some(file.doc), "version") == Read(r.version)
                             && Property(Some(file.doc), "installPath") == Read(r.installPath))
  {
    match file
    case Missing => NotInstalled
    case Unparseable => NotInstalled
    case Parsed(d) =>
      match (Property(Some(d), "version"), Property(Some(d), "installPath"))
      case (Read(v), Read(p)) => LocalState(true, v, p)
      case _ => NotInstalled
  }

  /**
   * The document `install-game` writes (main.js:134-137), as it reads back:
   * `JSON.stringify` drops a key whose value is `undefined`.
   */
  function StateRecord(version: Value, installPath: string, installedAt: nat): (r: Json)
    ensures r.JObj?
    ensures Keys(r.fields) == (if version.Some? then ["version"] else []) + ["installPath", "installedAt"]
    ensures Lookup(r.fields, "version") == version
    ensures Lookup(r.fields, "installPath") == Some(JStr(installPath))
    ensures Lookup(r.fields, "installedAt") == Some(JNum(installedAt))
  {
    JObj((if version.Some? then [("version", version.value)] else [])
         + [("installPath", JStr(installPath)), ("installedAt", JNum(installedAt))])
  }

  /** Decoding the record a successful install writes gives back its version and path. */
  lemma StateRecordRoundTrip(version: Value, installPath: string, installedAt: nat)
    ensures GetGameState(Parsed(StateRecord(version, installPath, installedAt)))
         == LocalState(true, version, Some(JStr(installPath)))
  {
    var fs := StateRecord(version, installPath, installedAt).fields;
    assert Keys(fs[..|fs| - 1]) == Keys(fs)[..|fs| - 1];
  }

  // ─── install-game: download total ────────────────────────────────────────

  /** From 10^21 on, `String(n)` switches to exponent form. */
  const ExponentFrom: int := 1_000_000_000_000_000_000_000

  /** `String(m)` for a non-negative integer. */
  function ShowMagnitude(m: nat): string {
    if m < ExponentFrom then Decimal.Show(m) else Decimal.Exponential(m)
  }

  function Abs(n: int): nat {
    if n < 0 then -n else n
  }

  /** `String(n)` for an integer: the sign, then the magnitude's numeral or exponent form. */
  function ShowInt(n: int): string {
    if n < 0 then Decimal.Negated(ShowMagnitude(Abs(n))) else ShowMagnitude(Abs(n))
  }

  /** `String(v)` for a parsed value; array elements that are `null` print as empty. */
  function ToText(v: Json): (r: string)
    ensures v.JStr? ==> r == v.s
    ensures v.JNum? && -ExponentFrom < v.n < ExponentFrom ==> Decimal.ParseInt(r) == Some(v.n)
    ensures v.JNum? && v.n >= ExponentFrom ==> Decimal.ParseInt(r) == Some(Decimal.LeadingDigit(v.n))
  {
    match v
    case JNull => "null"
    case JBool(b) => if b then "true" else "false"
    case JNum(n) => ParseShowInt(n); ShowInt(n)
    case JStr(s) => s
    case JArr(items) => JoinItems(items)
    case JObj(_) => "[object Object]"
  }

  /** `items.join(",")`, where `null` elements print as empty. */
  function JoinItems(items: seq<Json>): string
    decreases items
  {
    if |items| == 0 then ""
    else
      var head := if items[0].JNull? then "" else ToText(items[0]);
      if |items| == 1 then head else head + "," + JoinItems(items[1..])
  }

  /**
   * `parseInt(String(n))`: `n` itself below 10^21 in magnitude; from there
   * on only the leading digit of the exponent form, with the sign.
   */
  lemma ParseShowInt(n: int)
    ensures -ExponentFrom < n < ExponentFrom ==> Decimal.ParseInt(ShowInt(n)) == Some(n)
    ensures n >= ExponentFrom ==> Decimal.ParseInt(ShowInt(n)) == Some(Decimal.LeadingDigit(n))
    ensures n <= -ExponentFrom ==> Decimal.ParseInt(ShowInt(n)) == Some(-(Decimal.LeadingDigit(-n) as int))
  {
    if n <= -ExponentFrom {
      ParseShowHugeNegative(n);
    } else if n < 0 {
      ParseShowNegativeInt(n);
    } else if n < ExponentFrom {
      ParseShowNonNegative(n);
    } else {
      ParseShowHuge(n);
    }
  }

  lemma ParseShowNonNegative(n: int)
    requires 0 <= n < ExponentFrom
    ensures Decimal.ParseInt(ShowInt(n)) == Some(n)
  {
    Decimal.ParseShow(n);
    assert ShowInt(n) == Decimal.Show(n);
  }

  lemma ParseShowHuge(n: int)
    requires n >= ExponentFrom
    ensures Decimal.ParseInt(ShowInt(n)) == Some(Decimal.LeadingDigit(n))
  {
    Decimal.ParseExponential(n);
    assert ShowInt(n) == Decimal.Exponential(n);
  }

  lemma ParseShowHugeNegative(n: int)
    requires n <= -ExponentFrom
    ensures Decimal.ParseInt(ShowInt(n)) == Some(-(Decimal.LeadingDigit(-n) as int))
  {
    var m := Abs(n);
    var u := ShowMagnitude(m);
    var d := Decimal.LeadingDigit(m);
    assert u == Decimal.Exponential(m);
    Decimal.ParseUnsignedExponential(m);
    Decimal.ParseNegated(u, d);
    assert ShowInt(n) == Decimal.Negated(u);
    assert Decimal.ParseInt(ShowInt(n)) == Decimal.ParseInt(Decimal.Negated(u));
  }

  lemma ParseShowNegativeInt(n: int)
    requires -ExponentFrom < n < 0
    ensures Decimal.ParseInt(ShowInt(n)) == Some(n)
  {
    var m := Abs(n);
    var u := ShowMagnitude(m);
    Decimal.ParseUnsignedShow(m);
    Decimal.ParseNegated(u, m);
    assert ShowInt(n) == Decimal.Negated(u);
    assert Decimal.ParseInt(ShowInt(n)) == Decimal.ParseInt(Decimal.Negated(u));
  }

  /**
   * `parseInt(res.headers['content-length'] || totalSize || 0)`
   * (main.js:120): a non-empty header wins, then a truthy `totalSize`,
   * then 0.
   */
  function DownloadTotal(contentLength: Option<string>, totalSize: Value): (r: Progress.Total)
    ensures contentLength.Some? && contentLength.value != "" ==> r == Decimal.ParseInt(contentLength.value)
    ensures (contentLength.None? || contentLength == Some("")) && !Truthy(totalSize) ==> r == Some(0)
    ensures (contentLength.None? || contentLength == Some("")) && totalSize.Some? && totalSize.value.JStr?
            ==> r == (if totalSize.value.s == "" then Some(0) else Decimal.ParseInt(totalSize.value.s))
  {
    if contentLength.Some? && contentLength.value != "" then Decimal.ParseInt(contentLength.value)
    else if Truthy(totalSize) then Decimal.ParseInt(ToText(totalSize.value))
    else Some(0)
  }

  /** A non-empty header decides the total, even "0" next to a manifest size. */
  lemma TotalFromHeader(n: nat, totalSize: Value)
    ensures DownloadTotal(Some(Decimal.Show(n)), totalSize) == Some(n)
  {
    Decimal.ParseShow(n);
  }

  /**
   * Without a header, a numeric `totalSize` from the manifest is the total
   * (0 reads as 0) as long as it is below 10^21; a larger size is written
   * in exponent form and only its leading digit is read.
   */
  lemma TotalFromManifest(contentLength: Option<string>, n: int)
    requires contentLength.None? || contentLength == Some("")
    ensures -ExponentFrom < n < ExponentFrom ==> DownloadTotal(contentLength, Some(JNum(n))) == Some(n)
    ensures n >= ExponentFrom ==> DownloadTotal(contentLength, Some(JNum(n))) == Some(Decimal.LeadingDigit(n))
  {
    if n != 0 {
      ParseShowInt(n);
    }
  }

  /** A manifest `totalSize` of 10^21 bytes is read as a total of 1. */
  lemma HugeTotalReadsAsOne()
    ensures DownloadTotal(None, Some(JNum(ExponentFrom))) == Some(1)
  {
    TotalFromManifest(None, ExponentFrom);
    LeadingDigitOfExponentFrom();
  }

  lemma LeadingDigitOfExponentFrom()
    ensures Decimal.LeadingDigit(ExponentFrom) == 1
  {
    LeadingDigitOfPowerOfThousand(7);
    assert PowerOfThousand(7) == ExponentFrom;
  }

  /** `1000^k`. */
  function PowerOfThousand(k: nat): (p: nat)
    ensures p >= 1
  {
    if k == 0 then 1 else 1000 * PowerOfThousand(k - 1)
  }

  lemma {:induction false} LeadingDigitOfPowerOfThousand(k: nat)
    ensures Decimal.LeadingDigit(PowerOfThousand(k)) == 1
  {
    if k > 0 {
      LeadingDigitOfPowerOfThousand(k - 1);
      var x := PowerOfThousand(k - 1);
      assert (1000 * x) / 10 == 100 * x;
      assert (100 * x) / 10 == 10 * x;
      assert (10 * x) / 10 == x;
      assert Decimal.LeadingDigit(1000 * x) == Decimal.LeadingDigit(100 * x);
      assert Decimal.LeadingDigit(100 * x) == Decimal.LeadingDigit(10 * x);
      assert Decimal.LeadingDigit(10 * x) == Decimal.LeadingDigit(x);
    }
  }

  /** Without a header and without a truthy `totalSize`, the total is 0 and no percent is shown. */
  lemma TotalDefault(contentLength: Option<string>, totalSize: Value)
    requires contentLength.None? || contentLength == Some("")
    requires !Truthy(totalSize)
    ensures DownloadTotal(contentLength, totalSize) == Some(0)
    ensures forall d: nat :: Progress.Percent(d, DownloadTotal(contentLength, totalSize)) == 0
  {
  }

  // ─── install-game: pipeline ──────────────────────────────────────────────

  /** `{version, downloadUrl, totalSize}` as the renderer sends them. */
  datatype InstallOpts = InstallOpts(version: Value, downloadUrl: Value, totalSize: Value)

  /** How the download went, as observed by the handler. */
  /** How a response that started streaming stops. */
  datatype StreamEnd =
    | Ended     // the response emitted 'end'
    | Errored   // the response emitted 'error'
    | Stalled   // neither: the request has no timeout, so nothing happens

  datatype Transfer =
    | RequestFailed
      // the request emitted 'error' (unreachable host, unsupported protocol)
    | Streamed(contentLength: Option<string>, chunks: seq<nat>, end: StreamEnd)
      // a response arrived, delivered `chunks`, then stopped as `end` says

  /** The archive extraction's outcome (main.js:148-159). */
  datatype Extraction = Extraction(resolved: bool, archiveRemoved: bool)

  /**
   * `extractGame`: resolves exactly when the extract command succeeds. The
   * archive is then deleted, but a failed deletion is swallowed and does
   * not change the outcome.
   */
  function ExtractGame(commandOk: bool, unlinkOk: bool): (r: Extraction)
    ensures r.resolved <==> commandOk
    ensures r.archiveRemoved ==> r.resolved
    ensures r.resolved ==> (r.archiveRemoved <==> unlinkOk)
  {
    if !commandOk then Extraction(false, false) else Extraction(true, unlinkOk)
  }

  /** The observable steps of `install-game`, in the order they happen. */
  datatype Effect =
    | SendProgress(event: Progress.Event)   // 'game-download-progress'
    | Extracted(archiveRemoved: bool)       // extractGame resolved
    | WriteState(record: Json)              // installed.json written
    | SendComplete(version: Value)          // 'game-install-complete'
    | Resolve                               // the call resolves with {success: true}
    | Reject                                // the call rejects

  predicate Settles(e: Effect) {
    e.Resolve? || e.Reject?
  }

  /** Whether some step of `effects` settles the call. */
  predicate Settled(effects: seq<Effect>) {
    exists i :: 0 <= i < |effects| && Settles(effects[i])
  }

  function ProgressSends(events: seq<Progress.Event>): (r: seq<Effect>)
    ensures |r| == |events|
    ensures forall i :: 0 <= i < |r| ==> r[i] == SendProgress(events[i])
  {
    if |events| == 0 then [] else [SendProgress(events[0])] + ProgressSends(events[1..])
  }

  /** Whether the response stalled, so that the call never settles. */
  predicate Stalls(urlOk: bool, transfer: Transfer) {
    urlOk && transfer.Streamed? && transfer.end == Stalled
  }

  /** Whether the pipeline got as far as writing the record. */
  predicate Succeeds(urlOk: bool, transfer: Transfer, extractOk: bool) {
    urlOk && transfer.Streamed? && transfer.end == Ended && extractOk
  }

  /**
   * `install-game` (main.js:111-146). `urlOk` says whether `new URL(downloadUrl)`
   * accepted the address, `writeOk` whether `fs.writeFileSync` of the record
   * returned, `now` is `Date.now()`.
   *
   * Progress messages come first, one per chunk. Only after the response
   * ended and the extraction resolved is the record written, then
   * 'game-install-complete' sent, then the call resolved. Any earlier
   * failure rejects with no record and no completion message. A write that
   * throws rejects the call after the extraction, with no completion
   * message; the record may then be left partly written. A response that
   * stalls leaves the call unsettled.
   */
  function InstallGame(opts: InstallOpts, gamesDir: string, urlOk: bool, transfer: Transfer,
                       extractOk: bool, writeOk: bool, unlinkOk: bool, now: nat): (effects: seq<Effect>)
    ensures Settled(effects) <==> !Stalls(urlOk, transfer)
    ensures forall i :: 0 <= i < |effects| - 1 ==> !Settles(effects[i])
    ensures (|effects| >= 1 && effects[|effects| - 1] == Resolve) <==> Succeeds(urlOk, transfer, extractOk) && writeOk
    ensures !urlOk || transfer.RequestFailed? ==> effects == [Reject]
    ensures (exists k :: 0 <= k < |effects| && effects[k].Extracted?) <==> Succeeds(urlOk, transfer, extractOk)
  {
    if !urlOk || transfer.RequestFailed? then
      assert Settles([Reject][0]);
      [Reject]
    else
      var sends := ProgressSends(Progress.Events(transfer.chunks, DownloadTotal(transfer.contentLength, opts.totalSize)));
      var tail := InstallTail(opts, gamesDir, transfer.end, extractOk, writeOk, unlinkOk, now);
      AfterProgress(sends, tail);
      sends + tail
  }

  /** Progress messages before `tail` neither settle the call nor change its last step. */
  lemma AfterProgress(sends: seq<Effect>, tail: seq<Effect>)
    requires forall k :: 0 <= k < |sends| ==> sends[k].SendProgress?
    requires forall k :: 0 <= k < |tail| - 1 ==> !Settles(tail[k])
    ensures Settled(sends + tail) <==> Settled(tail)
    ensures forall k :: 0 <= k < |sends + tail| - 1 ==> !Settles((sends + tail)[k])
    ensures |tail| >= 1 ==> (sends + tail)[|sends + tail| - 1] == tail[|tail| - 1]
    ensures |tail| == 0 ==> sends + tail == sends
    ensures (exists k :: 0 <= k < |sends + tail| && (sends + tail)[k].WriteState?)
        <==> (exists k :: 0 <= k < |tail| && tail[k].WriteState?)
    ensures (exists k :: 0 <= k < |sends + tail| && (sends + tail)[k].SendComplete?)
        <==> (exists k :: 0 <= k < |tail| && tail[k].SendComplete?)
    ensures (exists k :: 0 <= k < |sends + tail| && (sends + tail)[k].Extracted?)
        <==> (exists k :: 0 <= k < |tail| && tail[k].Extracted?)
  {
    var effects := sends + tail;
    assert forall k :: 0 <= k < |effects| ==> effects[k] == if k < |sends| then sends[k] else tail[k - |sends|];
    if exists k :: 0 <= k < |effects| && effects[k].WriteState? {
      var k :| 0 <= k < |effects| && effects[k].WriteState?;
      assert tail[k - |sends|].WriteState?;
    }
    if exists k :: 0 <= k < |tail| && tail[k].WriteState? {
      var k :| 0 <= k < |tail| && tail[k].WriteState?;
      assert effects[|sends| + k].WriteState?;
    }
    if exists k :: 0 <= k < |effects| && effects[k].SendComplete? {
      var k :| 0 <= k < |effects| && effects[k].SendComplete?;
      assert tail[k - |sends|].SendComplete?;
    }
    if exists k :: 0 <= k < |tail| && tail[k].SendComplete? {
      var k :| 0 <= k < |tail| && tail[k].SendComplete?;
      assert effects[|sends| + k].SendComplete?;
    }
    if exists k :: 0 <= k < |effects| && effects[k].Extracted? {
      var k :| 0 <= k < |effects| && effects[k].Extracted?;
      assert tail[k - |sends|].Extracted?;
    }
    if exists k :: 0 <= k < |tail| && tail[k].Extracted? {
      var k :| 0 <= k < |tail| && tail[k].Extracted?;
      assert effects[|sends| + k].Extracted?;
    }
    if Settled(effects) {
      var i :| 0 <= i < |effects| && Settles(effects[i]);
      assert Settles(tail[i - |sends|]);
    }
    if Settled(tail) {
      var i :| 0 <= i < |tail| && Settles(tail[i]);
      assert Settles(effects[|sends| + i]);
    }
  }

  /** What follows the progress messages once the response has stopped. */
  function InstallTail(opts: InstallOpts, gamesDir: string, end: StreamEnd,
                       extractOk: bool, writeOk: bool, unlinkOk: bool, now: nat): (t: seq<Effect>)
    ensures end == Stalled <==> t == []
    ensures end != Stalled ==> Settles(t[|t| - 1])
    ensures forall k :: 0 <= k < |t| - 1 ==> !Settles(t[k])
    ensures (|t| >= 1 && t[|t| - 1] == Resolve) <==> end == Ended && extractOk && writeOk
    ensures forall k :: 0 <= k < |t| ==> !t[k].SendProgress?
    ensures (exists k :: 0 <= k < |t| && t[k].WriteState?) <==> end == Ended && extractOk && writeOk
    ensures (exists k :: 0 <= k < |t| && t[k].SendComplete?) <==> end == Ended && extractOk && writeOk
    ensures (exists k :: 0 <= k < |t| && t[k].Extracted?) <==> end == Ended && extractOk
  {
    match end
    case Stalled => []
    case Errored =>
      assert forall k :: 0 <= k < 1 ==> [Reject][k] == Reject;
      [Reject]
    case Ended =>
      EndedTailSettles(opts, gamesDir, extractOk, writeOk, unlinkOk, now);
      EndedTailSteps(opts, gamesDir, extractOk, writeOk, unlinkOk, now);
      EndedTail(opts, gamesDir, extractOk, writeOk, unlinkOk, now)
  }

  /** The steps of the response's `'end'` handler (main.js:130-142). */
  function EndedTail(opts: InstallOpts, gamesDir: string,
                     extractOk: bool, writeOk: bool, unlinkOk: bool, now: nat): seq<Effect>
  {
    var x := ExtractGame(extractOk, unlinkOk);
    if !x.resolved then [Reject]
    else if !writeOk then [Extracted(x.archiveRemoved), Reject]
    else [Extracted(x.archiveRemoved), WriteState(StateRecord(opts.version, gamesDir, now)),
          SendComplete(opts.version), Resolve]
  }

  /** The `'end'` handler settles the call exactly once, as its last step. */
  lemma EndedTailSettles(opts: InstallOpts, gamesDir: string,
                         extractOk: bool, writeOk: bool, unlinkOk: bool, now: nat)
    ensures var t := EndedTail(opts, gamesDir, extractOk, writeOk, unlinkOk, now);
      && |t| >= 1 && Settles(t[|t| - 1])
      && (forall k :: 0 <= k < |t| - 1 ==> !Settles(t[k]))
      && (t[|t| - 1] == Resolve <==> extractOk && writeOk)
      && (forall k :: 0 <= k < |t| ==> !t[k].SendProgress?)
  {
  }

  /** The extraction, the record and the completion message appear exactly on their own conditions. */
  lemma EndedTailSteps(opts: InstallOpts, gamesDir: string,
                       extractOk: bool, writeOk: bool, unlinkOk: bool, now: nat)
    ensures var t := EndedTail(opts, gamesDir, extractOk, writeOk, unlinkOk, now);
      && ((exists k :: 0 <= k < |t| && t[k].WriteState?) <==> extractOk && writeOk)
      && ((exists k :: 0 <= k < |t| && t[k].SendComplete?) <==> extractOk && writeOk)
      && ((exists k :: 0 <= k < |t| && t[k].Extracted?) <==> extractOk)
  {
    var t := EndedTail(opts, gamesDir, extractOk, writeOk, unlinkOk, now);
    if extractOk {
      assert t[0].Extracted?;
      if writeOk {
        assert t[1].WriteState? && t[2].SendComplete?;
      }
    }
  }

  /**
   * The record is written, and 'game-install-complete' sent, exactly when
   * the call resolves: never after a network, stream, extraction or write
   * failure.
   */
  lemma InstallWritesOnlyOnSuccess(opts: InstallOpts, gamesDir: string, urlOk: bool, transfer: Transfer,
                                   extractOk: bool, writeOk: bool, unlinkOk: bool, now: nat)
    ensures var effects := InstallGame(opts, gamesDir, urlOk, transfer, extractOk, writeOk, unlinkOk, now);
      && ((exists i :: 0 <= i < |effects| && effects[i].WriteState?) <==> Succeeds(urlOk, transfer, extractOk) && writeOk)
      && ((exists i :: 0 <= i < |effects| && effects[i].SendComplete?) <==> Succeeds(urlOk, transfer, extractOk) && writeOk)
      && ((exists i :: 0 <= i < |effects| && effects[i].Extracted?) <==> Succeeds(urlOk, transfer, extractOk))
  {
    if urlOk && transfer.Streamed? {
      var sends := ProgressSends(Progress.Events(transfer.chunks, DownloadTotal(transfer.contentLength, opts.totalSize)));
      var tail := InstallTail(opts, gamesDir, transfer.end, extractOk, writeOk, unlinkOk, now);
      AfterProgress(sends, tail);
    }
  }

  /** On success the last four steps are extract, write the record, send completion, resolve. */
  lemma InstallSuccessOrder(opts: InstallOpts, gamesDir: string, transfer: Transfer,
                            unlinkOk: bool, now: nat)
    requires transfer.Streamed? && transfer.end == Ended
    ensures var effects := InstallGame(opts, gamesDir, true, transfer, true, true, unlinkOk, now);
      |effects| >= 4
      && effects[|effects| - 4] == Extracted(unlinkOk)
      && effects[|effects| - 3] == WriteState(StateRecord(opts.version, gamesDir, now))
      && effects[|effects| - 2] == SendComplete(opts.version)
      && effects[|effects| - 1] == Resolve
  {
    var sends := ProgressSends(Progress.Events(transfer.chunks, DownloadTotal(transfer.contentLength, opts.totalSize)));
    var tail := InstallTail(opts, gamesDir, Ended, true, true, unlinkOk, now);
    assert tail == [Extracted(unlinkOk), WriteState(StateRecord(opts.version, gamesDir, now)),
                    SendComplete(opts.version), Resolve];
    assert InstallGame(opts, gamesDir, true, transfer, true, true, unlinkOk, now) == sends + tail;
  }

  /** A write that throws rejects right after the extraction, with no completion message. */
  lemma InstallWriteFails(opts: InstallOpts, gamesDir: string, transfer: Transfer,
                          unlinkOk: bool, now: nat)
    requires transfer.Streamed? && transfer.end == Ended
    ensures var effects := InstallGame(opts, gamesDir, true, transfer, true, false, unlinkOk, now);
      |effects| >= 2
      && effects[|effects| - 2] == Extracted(unlinkOk)
      && effects[|effects| - 1] == Reject
      && forall i :: 0 <= i < |effects| ==> !effects[i].SendComplete?
  {
  }

  /** Every progress message precedes every other step. */
  lemma InstallProgressFirst(opts: InstallOpts, gamesDir: string, urlOk: bool, transfer: Transfer,
                             extractOk: bool, writeOk: bool, unlinkOk: bool, now: nat)
    ensures var effects := InstallGame(opts, gamesDir, urlOk, transfer, extractOk, writeOk, unlinkOk, now);
      forall i, j :: 0 <= i < j < |effects| && effects[j].SendProgress? ==> effects[i].SendProgress?
  {
    var effects := InstallGame(opts, gamesDir, urlOk, transfer, extractOk, writeOk, unlinkOk, now);
    if urlOk && transfer.Streamed? {
      var sends := ProgressSends(Progress.Events(transfer.chunks, DownloadTotal(transfer.contentLength, opts.totalSize)));
      var tail := InstallTail(opts, gamesDir, transfer.end, extractOk, writeOk, unlinkOk, now);
      assert effects == sends + tail;
      assert forall k :: |sends| <= k < |effects| ==> effects[k] == tail[k - |sends|];
      assert forall k :: 0 <= k < |sends| ==> effects[k].SendProgress?;
    }
  }

  /** The progress messages of a transfer that got a response are exactly its running totals. */
  lemma InstallProgress(opts: InstallOpts, gamesDir: string, transfer: Transfer,
                        extractOk: bool, writeOk: bool, unlinkOk: bool, now: nat)
    requires transfer.Streamed?
    ensures var effects := InstallGame(opts, gamesDir, true, transfer, extractOk, writeOk, unlinkOk, now);
            var events := Progress.Events(transfer.chunks, DownloadTotal(transfer.contentLength, opts.totalSize));
            |effects| >= |events|
            && forall i :: 0 <= i < |events| ==> effects[i] == SendProgress(events[i])
  {
  }

  /**
   * After a successful install, reading the state back gives
   * `installed: true` with the installed version and the games directory.
   */
  lemma InstallThenGetGameState(opts: InstallOpts, gamesDir: string, transfer: Transfer,
                                unlinkOk: bool, now: nat)
    requires transfer.Streamed? && transfer.end == Ended
    ensures var effects := InstallGame(opts, gamesDir, true, transfer, true, true, unlinkOk, now);
            exists i :: 0 <= i < |effects| && effects[i].WriteState?
              && GetGameState(Parsed(effects[i].record)) == LocalState(true, opts.version, Some(JStr(gamesDir)))
  {
    var effects := InstallGame(opts, gamesDir, true, transfer, true, true, unlinkOk, now);
    StateRecordRoundTrip(opts.version, gamesDir, now);
    assert effects[|effects| - 3].WriteState?;
  }

  // ─── launch-game / close-game ────────────────────────────────────────────

  /** The main process's tracked game handle (`gameProcess`): held or `null`. */
  datatype MainState = MainState(gameProcess: bool)

  /** At start-up no handle is held. */
  const Start := MainState(false)

  /** A handler's reply: `{success, message}`. */
  datatype Reply = Reply(success: bool, message: Value)

  /**
   * `launch-game` (main.js:162-174): asks the shell to open the store URI
   * (`openError` is its failure, if any) and resolves with `{success: true}`.
   * It never assigns `gameProcess`.
   */
  function LaunchGame(m: MainState, openError: Option<string>): (r: (MainState, Result<Reply, string>))
    ensures r.0 == m
    ensures r.1.Ok? <==> openError.None?
    ensures r.1.Ok? ==> r.1.value.success
  {
    match openError
    case Some(e) => (m, Err(e))
    case None => (m, Ok(Reply(true, None)))
  }

  /**
   * `close-game` (main.js:178-201). With a handle, it is signalled (a throw is
   * swallowed), cleared, and the reply is `{success: true}`. Without one, the
   * game is killed by process name and `success` says the kill command
   * reported no error, whose message is passed on.
   */
  function CloseGame(m: MainState, killError: Option<string>): (r: (MainState, Reply))
    ensures !r.0.gameProcess
    ensures m.gameProcess ==> r.1 == Reply(true, None)
    ensures !m.gameProcess && killError.None? ==> r.1 == Reply(true, None)
    ensures !m.gameProcess ==> (r.1.success <==> killError.None?)
    ensures !m.gameProcess && killError.Some? ==> r.1.message == Some(JStr(killError.value))
  {
    if m.gameProcess then (MainState(false), Reply(true, None))
    else match killError
      case None => (m, Reply(true, None))
      case Some(e) => (m, Reply(false, Some(JStr(e))))
  }

  /** A launch or close request with the outcome of its external call. */
  datatype MainEvent = Launch(openError: Option<string>) | Close(killError: Option<string>)

  function RunMain(m: MainState, events: seq<MainEvent>): MainState
    decreases |events|
  {
    if |events| == 0 then m
    else
      var next := match events[0]
        case Launch(e) => LaunchGame(m, e).0
        case Close(e) => CloseGame(m, e).0;
      RunMain(next, events[1..])
  }

  /**
   * No sequence of launches and closes ever gives the main process a game
   * handle, so `close-game` always takes the kill-by-name branch.
   */
  lemma {:induction false} NeverHoldsHandle(events: seq<MainEvent>)
    ensures !RunMain(Start, events).gameProcess
    ensures forall e: Option<string> :: CloseGame(RunMain(Start, events), e).1.success <==> e.None?
  {
    if |events| > 0 {
      NeverHoldsHandle(events[1..]);
    }
  }

  // ─── fetch-game-manifest ────────────────────────────────────────────────

  /** Why a manifest fetch rejected. */
  datatype FetchError = NetworkError | InvalidManifest

  /**
   * The manifest request's outcome: a request error, a body that ended and
   * did or did not parse, or a response that never ends. Nothing listens
   * for the response's 'error', and the request's `timeout` option only
   * emits an event nobody handles, so a body that breaks off or stalls
   * leaves the call unsettled.
   */
  datatype ManifestResponse = RequestError | Body(parsed: Option<Json>) | NoEnd

  /**
   * `fetch-game-manifest` (main.js:85-98): resolves with the parsed body,
   * rejects with "Invalid manifest" when the body does not parse, and
   * rejects with the request's error otherwise; `None` is a call that
   * never settles. The status code is not looked at.
   */
  function FetchManifest(response: ManifestResponse): (r: Option<Result<Json, FetchError>>)
    ensures r.None? <==> response.NoEnd?
    ensures r.Some? && r.value.Ok? <==> response.Body? && response.parsed.Some?
    ensures r.Some? && r.value.Ok? ==> r.value.value == response.parsed.value
    ensures response.Body? && response.parsed.None? ==> r == Some(Err(InvalidManifest))
    ensures response.RequestError? ==> r == Some(Err(NetworkError))
  {
    match response
    case RequestError => Some(Err(NetworkError))
    case Body(None) => Some(Err(InvalidManifest))
    case Body(Some(j)) => Some(Ok(j))
    case NoEnd => None
  }

  // ─── channels ──────────────────────────────────────────────────────────

  /** The request channels main.js registers a handler for. */
  const Handled: set<string> := {
    "download-launcher-update", "install-launcher-update",
    "window-minimize", "window-maximize", "window-close",
    "fetch-game-manifest", "get-game-state", "install-game",
    "launch-game", "close-game", "open-external", "get-app-version"
  }

  /** The push channels main.js sends on. */
  const Sent: set<string> := {
    "launcher-update-available", "launcher-update-not-available",
    "launcher-download-progress", "launcher-update-downloaded",
    "launcher-update-error", "game-download-progress", "game-install-complete"
  }

  /**
   * Every push the main process sends passes the preload allowlist, and
   * the one allowed channel it never sends is "install-dir-changed".
   */
  lemma SentChannelsAllowed()
    ensures forall c :: c in Sent ==> Preload.IsAllowed(c)
    ensures forall c :: Preload.IsAllowed(c) && c !in Sent <==> c == "install-dir-changed"
  {
  }

  /** The four bridge methods without a handler in main.js. */
  lemma UnhandledMethods(m: Preload.Method)
    ensures Preload.ChannelOf(m) !in Handled
        <==> m in {Preload.GetSettings, Preload.SaveSettings, Preload.PickInstallDir, Preload.UninstallGame}
  {
  }
}

=== FILE: preload.dfy ===
/**
 * The preload bridge (preload.js): the `launcher` object the renderer sees.
 * Every request method forwards to one fixed IPC channel, and `on` filters
 * push channels through an allowlist before appending a listener to the
 * renderer's registry.
 */
module Preload {
  import opened Wrappers

  /** The eight push channels `on` accepts. */
  const Allowed: seq<string> := [
    "launcher-update-available", "launcher-update-not-available",
    "launcher-download-progress", "launcher-update-downloaded",
    "launcher-update-error", "game-download-progress",
    "game-install-complete", "install-dir-changed"
  ]

  predicate IsAllowed(channel: string) {
    channel in Allowed
  }

  /** One registered listener: the channel it was registered for and its callback. */
  datatype Listener<H> = Listener(channel: string, handler: H)

  /** The callbacks registered for `channel`, in registration order. */
  function Handlers<H>(registry: seq<Listener<H>>, channel: string): seq<H>
  {
    if |registry| == 0 then []
    else
      var last := registry[|registry| - 1];
      Handlers(registry[..|registry| - 1], channel) + (if last.channel == channel then [last.handler] else [])
  }

  lemma HandlersAppend<H>(registry: seq<Listener<H>>, l: Listener<H>, channel: string)
    ensures Handlers(registry + [l], channel)
         == Handlers(registry, channel) + (if l.channel == channel then [l.handler] else [])
  {
    assert (registry + [l])[..|registry|] == registry;
  }

  /**
   * `launcher.on(channel, callback)`. Registration only ever appends: a
   * second call for the same channel adds a second listener. A channel
   * outside the allowlist leaves the registry as it was.
   */
  function On<H>(registry: seq<Listener<H>>, channel: string, h: H): (r: seq<Listener<H>>)
    ensures IsAllowed(channel) ==> r == registry + [Listener(channel, h)]
    ensures !IsAllowed(channel) ==> r == registry
    ensures forall c :: Handlers(r, c)
                        == Handlers(registry, c) + (if c == channel && IsAllowed(channel) then [h] else [])
  {
    if IsAllowed(channel) then
      var r := registry + [Listener(channel, h)];
      assert forall c :: Handlers(r, c) == Handlers(registry, c) + (if c == channel then [h] else []) by {
        forall c {
          HandlersAppend(registry, Listener(channel, h), c);
        }
      }
      r
    else registry
  }

  /** `on` twice for the same allowed channel: the callback is registered twice. */
  lemma OnTwiceRegistersTwice<H>(registry: seq<Listener<H>>, channel: string, h: H)
    requires IsAllowed(channel)
    ensures Handlers(On(On(registry, channel, h), channel, h), channel)
         == Handlers(registry, channel) + [h, h]
  {
  }

  /** The IPC event object `ipcRenderer.on` hands to its wrapper. */
  datatype IpcEvent = IpcEvent(senderId: nat, frameId: nat)

  /** A push from the main process: the event object and the payload. */
  datatype Message<D> = Message(event: IpcEvent, data: D)

  /** One callback invocation and the single argument it receives. */
  datatype Call<H, D> = Call(handler: H, arg: D)

  /**
   * The callbacks a push on `channel` runs, in registration order. The
   * wrapper `(_, data) => callback(data)` passes the payload and drops
   * the event object.
   */
  function Deliver<H, D>(registry: seq<Listener<H>>, channel: string, m: Message<D>): (calls: seq<Call<H, D>>)
    ensures |calls| == |Handlers(registry, channel)|
    ensures forall i :: 0 <= i < |calls| ==>
      calls[i].handler == Handlers(registry, channel)[i] && calls[i].arg == m.data
  {
    if |registry| == 0 then []
    else
      var last := registry[|registry| - 1];
      Deliver(registry[..|registry| - 1], channel, m)
        + (if last.channel == channel then [Call(last.handler, m.data)] else [])
  }

  /** What a listener sees does not depend on the IPC event object. */
  lemma DeliverIgnoresEvent<H, D>(registry: seq<Listener<H>>, channel: string, e1: IpcEvent, e2: IpcEvent, data: D)
    ensures Deliver(registry, channel, Message(e1, data)) == Deliver(registry, channel, Message(e2, data))
  {
  }

  /** The request methods of the `launcher` object. */
  datatype Method =
    | Minimize | Maximize | CloseWindow | GetVersion
    | DownloadLauncherUpdate | InstallLauncherUpdate
    | GetSettings | SaveSettings | PickInstallDir
    | FetchGameManifest | GetGameState | InstallGame | LaunchGame | CloseGame | UninstallGame
    | OpenExternal

  /** The IPC channel each method invokes; none of them is a push channel the allowlist accepts. */
  function ChannelOf(m: Method): (c: string)
    ensures !IsAllowed(c)
  {
    match m
    case Minimize => "window-minimize"
    case Maximize => "window-maximize"
    case CloseWindow => "window-close"
    case GetVersion => "get-app-version"
    case DownloadLauncherUpdate => "download-launcher-update"
    case InstallLauncherUpdate => "install-launcher-update"
    case GetSettings => "get-settings"
    case SaveSettings => "save-settings"
    case PickInstallDir => "pick-install-dir"
    case FetchGameManifest => "fetch-game-manifest"
    case GetGameState => "get-game-state"
    case InstallGame => "install-game"
    case LaunchGame => "launch-game"
    case CloseGame => "close-game"
    case UninstallGame => "uninstall-game"
    case OpenExternal => "open-external"
  }

  /** The methods that pass their one argument on (`s`, `opts`, `url`). */
  predicate Forwards(m: Method) {
    m == SaveSettings || m == InstallGame || m == OpenExternal
  }

  /** An `ipcRenderer.invoke` request: the channel and the arguments after it. */
  datatype Invocation<A> = Invocation(channel: string, args: seq<A>)

  /**
   * Calling method `m` with argument `arg`.
   * Forwarding methods pass the argument unchanged, even when it is
   * `undefined`; the others drop it.
   */
  function Invoke<A>(m: Method, arg: A): (r: Invocation<A>)
    ensures r.channel == ChannelOf(m)
    ensures Forwards(m) ==> r.args == [arg]
    ensures !Forwards(m) ==> r.args == []
  {
    Invocation(ChannelOf(m), if Forwards(m) then [arg] else [])
  }

  /** No two methods share a channel, so a request names its method. */
  lemma ChannelOfInjective(m1: Method, m2: Method)
    requires m1 != m2
    ensures ChannelOf(m1) != ChannelOf(m2)
  {
  }
}

=== FILE: progress.dfy ===
/**
 * Download progress as `install-game` reports it (main.js:121-127): every
 * received chunk adds its length to `downloaded`, and one
 * `game-download-progress` message carries `{percent, downloaded, total}`.
 *
 * `percent` is `Math.round((downloaded / total) * 100)` when `total > 0` and
 * 0 otherwise. For natural numbers this is exactly
 * `(200 * downloaded + total) div (2 * total)`, so the model needs no floats.
 * Note that the code rounds rather than truncates: the bar shows 100% while
 * up to half a percent of the archive is still missing.
 */
module Progress {
  import opened Wrappers

  /** The JavaScript number `total`; `None` stands for `NaN` (an unparseable size). */
  type Total = Option<int>

  /** Whether `total > 0` holds in JavaScript (`NaN > 0` is false). */
  predicate Known(total: Total) {
    total.Some? && total.value > 0
  }

  /** Integer division facts the percent proofs rest on. */
  lemma DivBounds(a: nat, b: int)
    requires b > 0
    ensures b * (a / b) <= a < b * (a / b + 1)
  {
  }

  /**
   * `percent` for `downloaded` bytes out of `total`: the integer nearest to
   * `100 * downloaded / total`, with halves rounded up, as `Math.round` does.
   */
  function Percent(downloaded: nat, total: Total): (p: nat)
    ensures !Known(total) ==> p == 0
    ensures Known(total) ==>
      2 * total.value * p <= 200 * downloaded + total.value < 2 * total.value * (p + 1)
  {
    if Known(total) then
      DivBounds(200 * downloaded + total.value, 2 * total.value);
      (200 * downloaded + total.value) / (2 * total.value)
    else 0
  }

  /** More bytes never give a smaller percent. */
  lemma PercentMonotone(d1: nat, d2: nat, total: Total)
    requires d1 <= d2
    ensures Percent(d1, total) <= Percent(d2, total)
  {
    if Known(total) {
      var t := total.value;
      var p1, p2 := Percent(d1, total), Percent(d2, total);
      if p1 > p2 {
        assert 2 * t * p1 >= 2 * t * (p2 + 1) by {
          assert p1 >= p2 + 1;
          MulMonotone(2 * t, p2 + 1, p1);
        }
        assert false;
      }
    }
  }

  lemma MulMonotone(k: nat, a: nat, b: nat)
    requires a <= b
    ensures k * a <= k * b
  {
  }

  /** While the transfer has not overshot the announced size, percent is at most 100. */
  lemma PercentAtMost100(downloaded: nat, total: Total)
    requires Known(total) ==> downloaded <= total.value
    ensures Percent(downloaded, total) <= 100
  {
    if Known(total) {
      var t := total.value;
      var p := Percent(downloaded, total);
      if p > 100 {
        MulMonotone(2 * t, 101, p);
        assert false;
      }
    }
  }

  /** Receiving exactly `total` bytes reports 100. */
  lemma PercentComplete(total: Total)
    requires Known(total)
    ensures Percent(total.value, total) == 100
  {
    var t := total.value;
    var p := Percent(t, total);
    if p < 100 {
      MulMonotone(2 * t, p + 1, 100);
      assert false;
    } else if p > 100 {
      MulMonotone(2 * t, 101, p);
      assert false;
    }
  }

  /**
   * Rounding, not truncation: 199 of 200 bytes already reports 100, where
   * `floor(downloaded / total * 100)` would report 99.
   */
  lemma RoundsNotTruncates()
    ensures Percent(199, Some(200)) == 100
  {
  }

  /** One `game-download-progress` payload. */
  datatype Event = Event(percent: nat, downloaded: nat, total: Total)

  /** The total length of a sequence of chunks. */
  function Sum(chunks: seq<nat>): nat
  {
    if |chunks| == 0 then 0 else Sum(chunks[..|chunks| - 1]) + chunks[|chunks| - 1]
  }

  /**
   * The progress messages sent for the chunks received so far, one per
   * chunk in arrival order; message `i` carries the bytes of chunks `0..i`.
   */
  function Events(chunks: seq<nat>, total: Total): (r: seq<Event>)
    ensures |r| == |chunks|
    ensures forall i :: 0 <= i < |r| ==>
      r[i] == Event(Percent(Sum(chunks[..i + 1]), total), Sum(chunks[..i + 1]), total)
  {
    if |chunks| == 0 then []
    else
      var prefix := chunks[..|chunks| - 1];
      PrefixesAgree(chunks);
      assert chunks[..|chunks|] == chunks;
      Events(prefix, total) + [Event(Percent(Sum(chunks), total), Sum(chunks), total)]
  }

  lemma PrefixesAgree(chunks: seq<nat>)
    requires |chunks| > 0
    ensures forall k :: 0 < k < |chunks| ==> chunks[..|chunks| - 1][..k] == chunks[..k]
  {
  }

  /** The running byte count never decreases. */
  lemma {:induction false} SumPrefixMonotone(chunks: seq<nat>, i: nat, j: nat)
    requires i <= j <= |chunks|
    ensures Sum(chunks[..i]) <= Sum(chunks[..j])
    decreases j - i
  {
    if i < j {
      SumPrefixMonotone(chunks, i, j - 1);
      assert chunks[..j][..j - 1] == chunks[..j - 1];
    }
  }

  /** Within one transfer, neither `downloaded` nor `percent` ever goes down. */
  lemma EventsMonotone(chunks: seq<nat>, total: Total, i: nat, j: nat)
    requires i <= j < |chunks|
    ensures Events(chunks, total)[i].downloaded <= Events(chunks, total)[j].downloaded
    ensures Events(chunks, total)[i].percent <= Events(chunks, total)[j].percent
  {
    SumPrefixMonotone(chunks, i + 1, j + 1);
    PercentMonotone(Sum(chunks[..i + 1]), Sum(chunks[..j + 1]), total);
  }

  /** The last message of a transfer that delivered `total` bytes reports 100. */
  lemma LastEventComplete(chunks: seq<nat>, total: Total)
    requires |chunks| > 0 && Known(total) && Sum(chunks) == total.value
    ensures Events(chunks, total)[|chunks| - 1].percent == 100
  {
    assert chunks[..|chunks|] == chunks;
    PercentComplete(total);
  }

  /**
   * The `data` handler loop: `downloaded += chunk.length` and one message
   * per chunk. It produces exactly the messages `Events` describes.
   */
  method Stream(chunks: seq<nat>, total: Total) returns (sent: seq<Event>)
    ensures sent == Events(chunks, total)
  {
    var downloaded: nat := 0;
    sent := [];
    var i := 0;
    while i < |chunks|
      invariant 0 <= i <= |chunks|
      invariant downloaded == Sum(chunks[..i])
      invariant sent == Events(chunks[..i], total)
    {
      assert chunks[..i + 1][..i] == chunks[..i];
      downloaded := downloaded + chunks[i];
      var percent := if Known(total) then (200 * downloaded + total.value) / (2 * total.value) else 0;
      sent := sent + [Event(percent, downloaded, total)];
      i := i + 1;
    }
    assert chunks[..|chunks|] == chunks;
  }
}

=== FILE: renderer.dfy ===
/**
 * The renderer's state record `S` and its event handlers (renderer.js).
 *
 * An `await` after which a handler changes the record splits it in two:
 * the part before it runs on the user's click, and the part after it runs
 * when the promise settles, which is a separate event here
 * (`LaunchSettled`, `InstallSettled`, `CloseSettled`). The two awaits of
 * `loadGameState` make one event, `Loaded`: between them the record only
 * gains the manifest, which no handler reads while the state is still
 * `loading`. DOM updates, labels and the changelog are display only
 * and leave no trace in the model, except the close button, whose
 * visibility the 3-second timer decides.
 */
module Renderer {
  import opened Wrappers
  import opened Json
  import Preload
  import MainProcess
  import LauncherUpdate

  /** `S.appState`. */
  datatype AppState = Loading | Install | Update | Play | Installing | Running

  /** The callbacks the renderer hands to `launcher.on`. */
  datatype Handler =
    | OnUpdateAvailable | OnUpdateNotAvailable | OnUpdateProgress | OnUpdateDownloaded | OnUpdateError
    | OnGameProgress | OnGameComplete

  /** The channel each callback is registered for. */
  function ChannelFor(h: Handler): string {
    match h
    case OnUpdateAvailable => "launcher-update-available"
    case OnUpdateNotAvailable => "launcher-update-not-available"
    case OnUpdateProgress => "launcher-download-progress"
    case OnUpdateDownloaded => "launcher-update-downloaded"
    case OnUpdateError => "launcher-update-error"
    case OnGameProgress => "game-download-progress"
    case OnGameComplete => "game-install-complete"
  }

  /** The update-machine signal a launcher callback stands for; the game callbacks have none. */
  function SignalOf(h: Handler): Option<LauncherUpdate.Signal> {
    match h
    case OnUpdateAvailable => Some(LauncherUpdate.UpdateAvailable)
    case OnUpdateNotAvailable => Some(LauncherUpdate.UpdateNotAvailable)
    case OnUpdateProgress => Some(LauncherUpdate.DownloadProgress)
    case OnUpdateDownloaded => Some(LauncherUpdate.UpdateDownloaded)
    case OnUpdateError => Some(LauncherUpdate.UpdateError)
    case OnGameProgress => None
    case OnGameComplete => None
  }

  /** A request through the bridge; only `installGame` carries an argument. */
  type Request = Preload.Invocation<Option<MainProcess.InstallOpts>>

  /** A request without an argument. */
  function Call(m: Preload.Method): Request {
    Preload.Invoke(m, None)
  }

  /** The renderer's state record. */
  datatype S = S(
    appState: AppState,
    manifest: Json,                                  // `null` until a fetch resolves
    localState: Option<MainProcess.LocalState>,      // `null` until get-game-state answers
    gameRunning: bool,
    closeTimer: bool,                                // the timer held in S.closeGameTimer is pending
    strayTimers: nat,                                // pending timers no longer held in S.closeGameTimer
    closeButtonShown: bool,
    launcherUpdate: LauncherUpdate.UpdateState,
    launcherVersion: string,
    listeners: seq<Preload.Listener<Handler>>        // what `launcher.on` registered so far
  )

  /** The record as the script starts. */
  const Init := S(Loading, JNull, None, false, false, 0, false, LauncherUpdate.Idle, "1.0.0", [])

  /** A handler's result: the new record and the requests it sent, in order. */
  datatype Output = Output(s: S, requests: seq<Request>)

  /** Everything but the fields `setAppState` resets is left alone. */
  predicate KeepsData(s: S, r: S) {
    && r.manifest == s.manifest
    && r.localState == s.localState
    && r.strayTimers == s.strayTimers
    && r.launcherUpdate == s.launcherUpdate
    && r.launcherVersion == s.launcherVersion
    && r.listeners == s.listeners
  }

  // ─── setAppState / setRunningState ───────────────────────────────────────

  /**
   * `setAppState` (renderer.js:133-166): besides the new state it always
   * clears `gameRunning`, cancels the pending close timer and hides the
   * close button.
   */
  function SetAppState(s: S, st: AppState): (r: S)
    ensures r.appState == st
    ensures !r.gameRunning && !r.closeTimer && !r.closeButtonShown
    ensures KeepsData(s, r)
  {
    s.(appState := st, gameRunning := false, closeTimer := false, closeButtonShown := false)
  }

  /**
   * `setRunningState` (renderer.js:206-221): `running` with `gameRunning`
   * set, and a new 3-second timer. The timer it replaces in
   * `S.closeGameTimer` is not cleared and stays pending.
   */
  function SetRunningState(s: S): (r: S)
    ensures r.appState == Running && r.gameRunning && r.closeTimer
    ensures r.strayTimers == s.strayTimers + (if s.closeTimer then 1 else 0)
    ensures r.closeButtonShown == s.closeButtonShown
    ensures r.manifest == s.manifest && r.localState == s.localState && r.listeners == s.listeners
    ensures r.launcherUpdate == s.launcherUpdate && r.launcherVersion == s.launcherVersion
  {
    s.(appState := Running, gameRunning := true, closeTimer := true,
       strayTimers := s.strayTimers + (if s.closeTimer then 1 else 0))
  }

  // ─── boot ───────────────────────────────────────────────────────────────

  /** Every callback's channel passes the allowlist. */
  lemma ChannelAllowed(h: Handler)
    ensures Preload.IsAllowed(ChannelFor(h))
  {
    assert ChannelFor(h) in Preload.Allowed;
  }

  /**
   * `launcher.on(ChannelFor(h), h)`: the renderer registers each callback
   * on its own channel, which the allowlist accepts, so exactly one
   * listener is appended.
   */
  function Listen(listeners: seq<Preload.Listener<Handler>>, h: Handler): (r: seq<Preload.Listener<Handler>>)
    ensures r == listeners + [Preload.Listener(ChannelFor(h), h)]
  {
    ChannelAllowed(h);
    Preload.On(listeners, ChannelFor(h), h)
  }

  /** The five listeners `setupLauncherUpdateListeners` registers, in order, each on its own channel. */
  const LauncherListeners: seq<Preload.Listener<Handler>> := [
    Preload.Listener(ChannelFor(OnUpdateAvailable), OnUpdateAvailable),
    Preload.Listener(ChannelFor(OnUpdateNotAvailable), OnUpdateNotAvailable),
    Preload.Listener(ChannelFor(OnUpdateProgress), OnUpdateProgress),
    Preload.Listener(ChannelFor(OnUpdateDownloaded), OnUpdateDownloaded),
    Preload.Listener(ChannelFor(OnUpdateError), OnUpdateError)
  ]

  /**
   * `setupLauncherUpdateListeners` (renderer.js:53-86): all five channels
   * pass the allowlist, so five listeners are appended, each on its own
   * channel.
   */
  function SetupLauncherUpdateListeners(listeners: seq<Preload.Listener<Handler>>): (r: seq<Preload.Listener<Handler>>)
    ensures r == listeners + LauncherListeners
  {
    var r1 := Listen(listeners, OnUpdateAvailable);
    var r2 := Listen(r1, OnUpdateNotAvailable);
    var r3 := Listen(r2, OnUpdateProgress);
    var r4 := Listen(r3, OnUpdateDownloaded);
    assert r4 == listeners + LauncherListeners[..4];
    Listen(r4, OnUpdateError)
  }

  /**
   * The start of the DOMContentLoaded handler, once `getVersion` answered
   * `version`: the launcher listeners are registered and the manifest is
   * requested.
   */
  function Started(s: S, version: string): (r: Output)
    ensures r.s == s.(launcherVersion := version, listeners := s.listeners + LauncherListeners)
    ensures r.requests == [Call(Preload.FetchGameManifest)]
  {
    Output(s.(launcherVersion := version, listeners := SetupLauncherUpdateListeners(s.listeners)),
           [Call(Preload.FetchGameManifest)])
  }

  /**
   * The state the boot comparison picks (renderer.js:120-126): `install`
   * when nothing is installed, `update` when the installed version is not
   * `===` the manifest's `latestVersion`, and `play` otherwise.
   */
  function Derive(local: MainProcess.LocalState, latest: Value): (st: AppState)
    ensures st == Install <==> !local.installed
    ensures st == Play <==> local.installed && local.version == latest && !IsReference(latest)
    ensures st == Update <==> local.installed && (local.version != latest || IsReference(latest))
  {
    StrictEqualsSameValue(local.version, latest);
    if !local.installed then Install
    else if !StrictEquals(local.version, latest) then Update
    else Play
  }

  /**
   * The rest of `loadGameState` (renderer.js:101-130), once the manifest
   * fetch settled with `fetched` and, when it resolved, `get-game-state`
   * answered `local`. A rejected fetch changes nothing: no request is sent
   * and the state stays as it was. A manifest of `null` makes the
   * `manifest.latestVersion` read throw after `localState` was stored,
   * which also leaves `appState` alone.
   */
  function ManifestLoaded(s: S, fetched: Result<Json, MainProcess.FetchError>,
                          local: MainProcess.LocalState): (r: Output)
    ensures fetched.Err? ==> r == Output(s, [])
    ensures fetched.Ok? ==> (r.requests == [Call(Preload.GetGameState)]
                             && r.s.manifest == fetched.value && r.s.localState == Some(local))
    ensures fetched == Ok(JNull) ==> r.s.appState == s.appState
    ensures r.s.listeners == s.listeners && r.s.launcherUpdate == s.launcherUpdate
    ensures r.s.strayTimers == s.strayTimers && r.s.launcherVersion == s.launcherVersion
    ensures fetched == Ok(JNull) ==> r.s == s.(manifest := JNull, localState := Some(local))
    ensures fetched.Ok? && fetched.value != JNull ==> !r.s.closeTimer && !r.s.closeButtonShown && !r.s.gameRunning
  {
    match fetched
    case Err(_) => Output(s, [])
    case Ok(m) =>
      var s1 := s.(manifest := m, localState := Some(local));
      match Property(Some(m), "latestVersion")
      case TypeError => Output(s1, [Call(Preload.GetGameState)])
      case Read(latest) => Output(SetAppState(s1, Derive(local, latest)), [Call(Preload.GetGameState)])
  }

  /**
   * The boot derivation, both ways, for every manifest but `null`: with
   * `latest` the manifest's `latestVersion` (`undefined` for an array, a
   * string, a number or a boolean, and for an object without the key), the
   * state is `install` exactly when nothing is installed, `update` exactly
   * when an install's version is not `===` it, and `play` exactly when it
   * is. A `null` manifest leaves the state as it was.
   */
  lemma BootDerivation(s: S, m: Json, local: MainProcess.LocalState)
    ensures m != JNull ==>
            var r := ManifestLoaded(s, Ok(m), local).s;
            var latest := Property(Some(m), "latestVersion").value;
            && (r.appState == Install <==> !local.installed)
            && (r.appState == Update <==> local.installed && !StrictEquals(local.version, latest))
            && (r.appState == Play <==> local.installed && StrictEquals(local.version, latest))
            && !r.gameRunning
    ensures m == JNull ==> ManifestLoaded(s, Ok(m), local).s.appState == s.appState
    ensures m.JObj? ==> Property(Some(m), "latestVersion").value == Lookup(m.fields, "latestVersion")
  {
  }

  /** A failed manifest fetch leaves the whole record, `localState` included, untouched. */
  lemma FetchFailureKeepsState(s: S, e: MainProcess.FetchError, local: MainProcess.LocalState)
    ensures ManifestLoaded(s, Err(e), local).s == s
    ensures ManifestLoaded(s, Err(e), local).requests == []
  {
  }

  /**
   * The fetch as the main process settles it, read by the renderer: only
   * a body that parsed stores a manifest and asks for the local state;
   * a request error or a body that does not parse leaves the record as
   * it was.
   */
  lemma LoadedFromFetch(s: S, response: MainProcess.ManifestResponse, local: MainProcess.LocalState)
    requires !response.NoEnd?
    ensures MainProcess.FetchManifest(response).Some?
    ensures var r := ManifestLoaded(s, MainProcess.FetchManifest(response).value, local);
      && (response.Body? && response.parsed.Some? ==>
            r.requests == [Call(Preload.GetGameState)]
            && r.s.manifest == response.parsed.value && r.s.localState == Some(local))
      && (!(response.Body? && response.parsed.Some?) ==> r == Output(s, []))
  {
  }

  // ─── main button ────────────────────────────────────────────────────────

  /** The options `startInstall` sends, read off the manifest. */
  function OptsOf(manifest: Json): MainProcess.InstallOpts
    requires Truthy(Some(manifest))
  {
    MainProcess.InstallOpts(Get(Some(manifest), "latestVersion"), Get(Some(manifest), "downloadUrl"),
                            Get(Some(manifest), "totalSize"))
  }

  /**
   * `startInstall` (renderer.js:237-273), up to its `await`. Without a
   * (truthy) manifest it does nothing. Otherwise it moves to `installing`,
   * registers one more progress and one more completion listener (earlier
   * ones stay), and sends `install-game` with exactly the manifest's
   * `latestVersion`, `downloadUrl` and `totalSize`.
   */
  function StartInstall(s: S): (r: Output)
    ensures !Truthy(Some(s.manifest)) ==> r == Output(s, [])
    ensures Truthy(Some(s.manifest)) ==>
      && r.s == s.(appState := Installing,
                   listeners := s.listeners + [Preload.Listener(ChannelFor(OnGameProgress), OnGameProgress),
                                               Preload.Listener(ChannelFor(OnGameComplete), OnGameComplete)])
      && r.requests == [Preload.Invocation("install-game", [Some(MainProcess.InstallOpts(
           Get(Some(s.manifest), "latestVersion"), Get(Some(s.manifest), "downloadUrl"),
           Get(Some(s.manifest), "totalSize")))])]
  {
    if !Truthy(Some(s.manifest)) then Output(s, [])
    else
      Output(s.(appState := Installing, listeners := Listen(Listen(s.listeners, OnGameProgress), OnGameComplete)),
             [Preload.Invoke(Preload.InstallGame, Some(OptsOf(s.manifest)))])
  }

  /** No two callbacks share a channel. */
  lemma ChannelForInjective(g: Handler, h: Handler)
    requires g != h
    ensures ChannelFor(g) != ChannelFor(h)
  {
  }

  lemma ListenHandlers(listeners: seq<Preload.Listener<Handler>>, h: Handler, c: string)
    ensures Preload.Handlers(Listen(listeners, h), c)
         == Preload.Handlers(listeners, c) + (if ChannelFor(h) == c then [h] else [])
  {
    Preload.HandlersAppend(listeners, Preload.Listener(ChannelFor(h), h), c);
  }

  /**
   * Each install attempt registers one more progress and one more
   * completion listener; the earlier ones stay.
   */
  lemma StartInstallRegisters(s: S)
    requires Truthy(Some(s.manifest))
    ensures var r := StartInstall(s).s;
      && Preload.Handlers(r.listeners, "game-install-complete")
         == Preload.Handlers(s.listeners, "game-install-complete") + [OnGameComplete]
      && Preload.Handlers(r.listeners, "game-download-progress")
         == Preload.Handlers(s.listeners, "game-download-progress") + [OnGameProgress]
  {
    assert ChannelFor(OnGameComplete) == "game-install-complete";
    assert ChannelFor(OnGameProgress) == "game-download-progress";
    var l1 := Listen(s.listeners, OnGameProgress);
    ChannelForInjective(OnGameProgress, OnGameComplete);
    ListenHandlers(s.listeners, OnGameProgress, ChannelFor(OnGameComplete));
    ListenHandlers(l1, OnGameComplete, ChannelFor(OnGameComplete));
    ListenHandlers(s.listeners, OnGameProgress, ChannelFor(OnGameProgress));
    ListenHandlers(l1, OnGameComplete, ChannelFor(OnGameProgress));
  }

  /**
   * `handleMainAction` (renderer.js:188-194): `play` asks to launch,
   * `install` and `update` start an install, and `loading`, `installing`
   * and `running` do nothing at all.
   */
  function MainAction(s: S): (r: Output)
    ensures s.appState == Play ==> r == Output(s, [Call(Preload.LaunchGame)])
    ensures s.appState in {Install, Update} ==> r == StartInstall(s)
    ensures s.appState in {Loading, Installing, Running} ==> r == Output(s, [])
  {
    if s.appState == Play then Output(s, [Call(Preload.LaunchGame)])
    else if s.appState == Update || s.appState == Install then StartInstall(s)
    else Output(s, [])
  }

  /**
   * `launchGame` after its `await` (renderer.js:197-204): success enters
   * `running`; a rejection is only logged.
   */
  function LaunchSettled(s: S, ok: bool): (r: S)
    ensures ok ==> r.appState == Running && r.gameRunning && r.closeTimer
    ensures ok ==> r.closeButtonShown == s.closeButtonShown
                   && r.strayTimers == s.strayTimers + (if s.closeTimer then 1 else 0)
    ensures ok ==> && r.manifest == s.manifest && r.localState == s.localState
                   && r.listeners == s.listeners && r.launcherUpdate == s.launcherUpdate
                   && r.launcherVersion == s.launcherVersion
    ensures !ok ==> r == s
  {
    if ok then SetRunningState(s) else s
  }

  /**
   * `startInstall` after its `await`: a rejection always falls back to
   * `install`, even when the attempt started from `update`.
   */
  function InstallSettled(s: S, ok: bool): (r: S)
    ensures ok ==> r == s
    ensures !ok ==> r.appState == Install && !r.gameRunning && KeepsData(s, r)
    ensures !ok ==> !r.closeTimer && !r.closeButtonShown
  {
    if ok then s else SetAppState(s, Install)
  }

  // ─── close ──────────────────────────────────────────────────────────────

  /** Whether a timer of the kind `stray` picks is pending, so that it can fire. */
  predicate Pending(s: S, stray: bool) {
    if stray then s.strayTimers > 0 else s.closeTimer
  }

  /**
   * The 3-second timer firing (renderer.js:216-220): it shows the close
   * button only if the game is still marked running. `stray` picks a timer
   * that an earlier `setRunningState` left pending.
   */
  function TimerFired(s: S, stray: bool): (r: S)
    ensures Pending(s, stray) ==> r.closeButtonShown == (s.closeButtonShown || s.gameRunning)
    ensures !Pending(s, stray) ==> r == s
    ensures Pending(s, stray) && stray ==> r.strayTimers == s.strayTimers - 1 && r.closeTimer == s.closeTimer
    ensures Pending(s, stray) && !stray ==> !r.closeTimer && r.strayTimers == s.strayTimers
    ensures r.closeButtonShown ==> s.closeButtonShown || s.gameRunning
    ensures r.appState == s.appState && r.gameRunning == s.gameRunning
    ensures r.manifest == s.manifest && r.localState == s.localState
    ensures r.listeners == s.listeners && r.launcherUpdate == s.launcherUpdate
    ensures r.launcherVersion == s.launcherVersion
  {
    if stray then
      if s.strayTimers == 0 then s
      else s.(strayTimers := s.strayTimers - 1, closeButtonShown := s.closeButtonShown || s.gameRunning)
    else
      if !s.closeTimer then s
      else s.(closeTimer := false, closeButtonShown := s.closeButtonShown || s.gameRunning)
  }

  /**
   * `handleCloseGame` after its `await` (renderer.js:224-234): whether
   * `closeGame` resolved or threw, the game is marked stopped and the
   * launcher returns to `play`.
   */
  function CloseSettled(s: S): (r: S)
    ensures r.appState == Play && !r.gameRunning && !r.closeTimer && !r.closeButtonShown
    ensures KeepsData(s, r)
  {
    SetAppState(s.(gameRunning := false, closeTimer := false, closeButtonShown := false), Play)
  }

  // ─── pushes from the main process ───────────────────────────────────────

  /**
   * One listener running on a push with payload `data`. The launcher
   * listeners move the update machine; the game progress listener only
   * redraws; the completion listener asks for the local state and stores
   * the answer `refreshed`, then reads `data.version` and enters `play`.
   * When the payload is `undefined` or `null` that read throws, after the
   * local state was stored and before `play`.
   */
  function Apply(s: S, h: Handler, data: Value, refreshed: MainProcess.LocalState): (r: Output)
    ensures r.s.listeners == s.listeners
    ensures h == OnGameComplete ==> r.requests == [Call(Preload.GetGameState)]
    ensures h == OnGameComplete && HasPayload(data) ==>
      r.s == SetAppState(s.(localState := Some(refreshed)), Play)
    ensures h == OnGameComplete && !HasPayload(data) ==> r.s == s.(localState := Some(refreshed))
    ensures h != OnGameComplete ==> r.requests == [] && r.s == s.(launcherUpdate := r.s.launcherUpdate)
    ensures SignalOf(h).Some? ==>
      r == Output(s.(launcherUpdate := LauncherUpdate.OnSignal(s.launcherUpdate, SignalOf(h).value)), [])
    ensures h == OnGameProgress ==> r == Output(s, [])
  {
    match h
    case OnUpdateAvailable =>
      Output(s.(launcherUpdate := LauncherUpdate.OnSignal(s.launcherUpdate, LauncherUpdate.UpdateAvailable)), [])
    case OnUpdateNotAvailable =>
      Output(s.(launcherUpdate := LauncherUpdate.OnSignal(s.launcherUpdate, LauncherUpdate.UpdateNotAvailable)), [])
    case OnUpdateProgress =>
      Output(s.(launcherUpdate := LauncherUpdate.OnSignal(s.launcherUpdate, LauncherUpdate.DownloadProgress)), [])
    case OnUpdateDownloaded =>
      Output(s.(launcherUpdate := LauncherUpdate.OnSignal(s.launcherUpdate, LauncherUpdate.UpdateDownloaded)), [])
    case OnUpdateError =>
      Output(s.(launcherUpdate := LauncherUpdate.OnSignal(s.launcherUpdate, LauncherUpdate.UpdateError)), [])
    case OnGameProgress => Output(s, [])
    case OnGameComplete =>
      var stored := s.(localState := Some(refreshed));
      match Property(data, "version")
      case TypeError => Output(stored, [Call(Preload.GetGameState)])
      case Read(_) => Output(SetAppState(stored, Play), [Call(Preload.GetGameState)])
  }

  /** A payload whose properties can be read: neither `undefined` nor `null`. */
  predicate HasPayload(data: Value) {
    data.Some? && data.value != JNull
  }

  /** The listeners of one push, run in registration order. */
  function RunCalls(s: S, calls: seq<Preload.Call<Handler, Value>>, refreshed: MainProcess.LocalState): (r: Output)
    ensures r.s.listeners == s.listeners
    decreases |calls|
  {
    if |calls| == 0 then Output(s, [])
    else
      var first := Apply(s, calls[0].handler, calls[0].arg, refreshed);
      var rest := RunCalls(first.s, calls[1..], refreshed);
      Output(rest.s, first.requests + rest.requests)
  }

  /** A push on `channel` with payload `data`; `refreshed` answers any `getGameState` it sends. */
  function Pushed(s: S, channel: string, m: Preload.Message<Value>, refreshed: MainProcess.LocalState): (r: Output)
    ensures r.s.listeners == s.listeners
  {
    RunCalls(s, Preload.Deliver(s.listeners, channel, m), refreshed)
  }

  /**
   * Completion listeners registered several times all run, and each asks
   * for the local state once, but the result is the same as one listener:
   * `play` with the refreshed local state.
   */
  lemma {:induction false} RepeatedCompletionIsIdempotent(s: S, calls: seq<Preload.Call<Handler, Value>>,
                                                          refreshed: MainProcess.LocalState)
    requires |calls| >= 1
    requires forall i :: 0 <= i < |calls| ==> calls[i].handler == OnGameComplete && HasPayload(calls[i].arg)
    ensures RunCalls(s, calls, refreshed).s == SetAppState(s.(localState := Some(refreshed)), Play)
    ensures RunCalls(s, calls, refreshed).requests == seq(|calls|, _ => Call(Preload.GetGameState))
    decreases |calls|
  {
    var first := Apply(s, calls[0].handler, calls[0].arg, refreshed);
    if |calls| > 1 {
      RepeatedCompletionIsIdempotent(first.s, calls[1..], refreshed);
    }
  }

  /**
   * A push on a launcher channel whose one listener is that channel's
   * callback moves the update machine by the callback's signal and sends
   * nothing.
   */
  lemma LauncherPushMoves(s: S, h: Handler, m: Preload.Message<Value>, refreshed: MainProcess.LocalState)
    requires SignalOf(h).Some?
    requires Preload.Handlers(s.listeners, ChannelFor(h)) == [h]
    ensures Pushed(s, ChannelFor(h), m, refreshed)
         == Output(s.(launcherUpdate := LauncherUpdate.OnSignal(s.launcherUpdate, SignalOf(h).value)), [])
  {
    var calls := Preload.Deliver(s.listeners, ChannelFor(h), m);
    assert calls == [Preload.Call(h, m.data)];
    var first := Apply(s, h, m.data, refreshed);
    assert RunCalls(first.s, calls[1..], refreshed) == Output(first.s, []);
    assert first.requests + [] == [];
  }

  /** After `setupLauncherUpdateListeners` alone, each launcher channel has exactly its own callback. */
  lemma LauncherListenersHandlers(h: Handler)
    requires SignalOf(h).Some?
    ensures Preload.Handlers(LauncherListeners, ChannelFor(h)) == [h]
  {
    var c := ChannelFor(h);
    forall k: Handler
      ensures ChannelFor(k) == c <==> k == h
    {
      if k != h {
        ChannelForInjective(k, h);
      }
    }
    var r1 := Listen([], OnUpdateAvailable);
    var r2 := Listen(r1, OnUpdateNotAvailable);
    var r3 := Listen(r2, OnUpdateProgress);
    var r4 := Listen(r3, OnUpdateDownloaded);
    ListenHandlers([], OnUpdateAvailable, c);
    assert Preload.Handlers(r1, c) == if h == OnUpdateAvailable then [h] else [];
    ListenHandlers(r1, OnUpdateNotAvailable, c);
    assert Preload.Handlers(r2, c) == if h in {OnUpdateAvailable, OnUpdateNotAvailable} then [h] else [];
    ListenHandlers(r2, OnUpdateProgress, c);
    assert Preload.Handlers(r3, c) == if h in {OnUpdateAvailable, OnUpdateNotAvailable, OnUpdateProgress} then [h] else [];
    ListenHandlers(r3, OnUpdateDownloaded, c);
    assert Preload.Handlers(r4, c) == if h == OnUpdateError then [] else [h];
    ListenHandlers(r4, OnUpdateError, c);
    assert Listen(r4, OnUpdateError) == SetupLauncherUpdateListeners([]);
    assert [] + LauncherListeners == LauncherListeners;
  }

  // ─── launcher update button ─────────────────────────────────────────────

  /** The bridge method behind each update request. */
  function UpdateRequest(q: LauncherUpdate.Request): Request {
    match q
    case RequestDownload => Call(Preload.DownloadLauncherUpdate)
    case RequestInstall => Call(Preload.InstallLauncherUpdate)
  }

  /** `handleLauncherUpdate` (renderer.js:89-98), up to its `await`. */
  function LauncherButton(s: S): (r: Output)
    ensures r.s == s.(launcherUpdate := LauncherUpdate.OnButton(s.launcherUpdate).0)
    ensures s.launcherUpdate == LauncherUpdate.Ready ==> r.requests == [Call(Preload.InstallLauncherUpdate)]
    ensures s.launcherUpdate == LauncherUpdate.Available ==> r.requests == [Call(Preload.DownloadLauncherUpdate)]
    ensures s.launcherUpdate in {LauncherUpdate.Idle, LauncherUpdate.Downloading} ==> r.requests == []
  {
    var (u, qs) := LauncherUpdate.OnButton(s.launcherUpdate);
    Output(s.(launcherUpdate := u), seq(|qs|, i requires 0 <= i < |qs| => UpdateRequest(qs[i])))
  }

  // ─── events ─────────────────────────────────────────────────────────────

  /** Everything that can make the renderer run code. */
  datatype Event =
    | Boot(version: string)                                   // getVersion answered
    | Loaded(fetched: Result<Json, MainProcess.FetchError>, local: MainProcess.LocalState)
    | MainClicked
    | LaunchDone(ok: bool)
    | InstallDone(ok: bool)
    | TimerDue(stray: bool)
    | CloseClicked
    | CloseDone
    | Push(channel: string, message: Preload.Message<Value>, refreshed: MainProcess.LocalState)
    | LauncherClicked

  /** One event; handlers only ever add listeners. */
  function Step(s: S, e: Event): (r: Output)
    ensures s.listeners <= r.s.listeners
    ensures !e.Boot? && !e.MainClicked? ==> r.s.listeners == s.listeners
  {
    match e
    case Boot(v) => Started(s, v)
    case Loaded(f, l) => ManifestLoaded(s, f, l)
    case MainClicked => MainAction(s)
    case LaunchDone(ok) => Output(LaunchSettled(s, ok), [])
    case InstallDone(ok) => Output(InstallSettled(s, ok), [])
    case TimerDue(stray) => Output(TimerFired(s, stray), [])
    case CloseClicked => Output(s, [Call(Preload.CloseGame)])
    case CloseDone => Output(CloseSettled(s), [])
    case Push(c, m, l) => Pushed(s, c, m, l)
    case LauncherClicked => LauncherButton(s)
  }

  /** The record after a sequence of events. */
  function Run(s: S, events: seq<Event>): S
    decreases |events|
  {
    if |events| == 0 then s else Run(Step(s, events[0]).s, events[1..])
  }

  // ─── invariants ─────────────────────────────────────────────────────────

  /** Wired registries: every listener sits on its callback's channel. */
  ghost predicate Wired(listeners: seq<Preload.Listener<Handler>>) {
    forall i :: 0 <= i < |listeners| ==> listeners[i].channel == ChannelFor(listeners[i].handler)
  }

  /**
   * What holds in every reachable record: `gameRunning` is set exactly in
   * `running`; the close button shows only while the game is marked
   * running; every listener sits on its own channel; and in `installing`
   * at least one completion listener is registered.
   */
  ghost predicate Inv(s: S) {
    && (s.gameRunning <==> s.appState == Running)
    && (s.closeButtonShown ==> s.gameRunning)
    && Wired(s.listeners)
    && (s.appState == Installing ==> |Preload.Handlers(s.listeners, "game-install-complete")| >= 1)
  }

  lemma InitInv()
    ensures Inv(Init)
  {
  }

  /** Appending a listener registered on its own channel keeps every listener on its channel. */
  lemma WiredOn(listeners: seq<Preload.Listener<Handler>>, h: Handler)
    requires Wired(listeners)
    ensures Wired(Listen(listeners, h))
  {
  }

  lemma {:induction false} RunCallsInv(s: S, calls: seq<Preload.Call<Handler, Value>>, refreshed: MainProcess.LocalState)
    requires Inv(s)
    ensures Inv(RunCalls(s, calls, refreshed).s)
    decreases |calls|
  {
    if |calls| > 0 {
      var first := Apply(s, calls[0].handler, calls[0].arg, refreshed);
      assert Inv(first.s);
      RunCallsInv(first.s, calls[1..], refreshed);
    }
  }

  /** A longer registry has at least the handlers of a shorter one it extends. */
  lemma {:induction false} HandlersPrefix(a: seq<Preload.Listener<Handler>>, b: seq<Preload.Listener<Handler>>, c: string)
    requires a <= b
    ensures |Preload.Handlers(a, c)| <= |Preload.Handlers(b, c)|
    decreases |b|
  {
    if |a| < |b| {
      assert a <= b[..|b| - 1];
      HandlersPrefix(a, b[..|b| - 1], c);
      var last := b[|b| - 1];
      assert Preload.Handlers(b, c)
          == Preload.Handlers(b[..|b| - 1], c) + (if last.channel == c then [last.handler] else []);
    } else {
      assert a == b;
    }
  }

  lemma {:induction false} WiredAppend(a: seq<Preload.Listener<Handler>>, b: seq<Preload.Listener<Handler>>)
    requires Wired(a) && Wired(b)
    ensures Wired(a + b)
  {
    forall i | 0 <= i < |a + b|
      ensures (a + b)[i].channel == ChannelFor((a + b)[i].handler)
    {
      if i < |a| {
        assert (a + b)[i] == a[i];
      } else {
        assert (a + b)[i] == b[i - |a|];
      }
    }
  }

  lemma LauncherListenersWired()
    ensures Wired(LauncherListeners)
  {
    forall i | 0 <= i < |LauncherListeners|
      ensures LauncherListeners[i].channel == ChannelFor(LauncherListeners[i].handler)
    {
    }
  }

  lemma BootInv(s: S, v: string)
    requires Inv(s)
    ensures Inv(Started(s, v).s)
  {
    var r := Started(s, v).s;
    LauncherListenersWired();
    WiredAppend(s.listeners, LauncherListeners);
    if s.appState == Installing {
      HandlersPrefix(s.listeners, r.listeners, "game-install-complete");
    }
  }

  lemma StartInstallWired(s: S)
    requires Wired(s.listeners) && Truthy(Some(s.manifest))
    ensures Wired(StartInstall(s).s.listeners)
  {
    WiredOn(s.listeners, OnGameProgress);
    WiredOn(Listen(s.listeners, OnGameProgress), OnGameComplete);
    assert StartInstall(s).s.listeners == Listen(Listen(s.listeners, OnGameProgress), OnGameComplete);
  }

  lemma StartInstallInv(s: S)
    requires Inv(s)
    requires s.appState in {Install, Update} && Truthy(Some(s.manifest))
    ensures Inv(StartInstall(s).s)
  {
    var r := StartInstall(s).s;
    assert Wired(s.listeners);
    StartInstallWired(s);
    StartInstallRegisters(s);
    assert r.appState == Installing && !r.gameRunning && !r.closeButtonShown;
  }

  lemma MainClickedInv(s: S)
    requires Inv(s)
    ensures Inv(MainAction(s).s)
  {
    if s.appState in {Install, Update} && Truthy(Some(s.manifest)) {
      StartInstallInv(s);
    }
  }

  lemma LoadedInv(s: S, fetched: Result<Json, MainProcess.FetchError>, local: MainProcess.LocalState)
    requires Inv(s)
    ensures Inv(ManifestLoaded(s, fetched, local).s)
  {
  }

  lemma StepInv(s: S, e: Event)
    requires Inv(s)
    ensures Inv(Step(s, e).s)
  {
    match e
    case Boot(v) => BootInv(s, v);
    case MainClicked => MainClickedInv(s);
    case Push(c, m, l) => RunCallsInv(s, Preload.Deliver(s.listeners, c, m), l);
    case Loaded(f, l) => LoadedInv(s, f, l);
    case _ =>
  }

  /** Every record reachable from the start satisfies `Inv`. */
  lemma {:induction false} RunInv(s: S, events: seq<Event>)
    requires Inv(s)
    ensures Inv(Run(s, events))
    decreases |events|
  {
    if |events| > 0 {
      StepInv(s, events[0]);
      RunInv(Step(s, events[0]).s, events[1..]);
    }
  }

  /**
   * In every record reachable from the start, the close button shows only
   * in `running`, and the game is marked running exactly there.
   */
  lemma {:induction false} ReachableCloseButton(events: seq<Event>)
    ensures var r := Run(Init, events);
      && (r.closeButtonShown ==> r.appState == Running)
      && (r.gameRunning <==> r.appState == Running)
  {
    InitInv();
    RunInv(Init, events);
  }

  /** Listeners are never removed: each record's registry extends the previous one. */
  lemma {:induction false} ListenersOnlyGrow(s: S, events: seq<Event>)
    ensures s.listeners <= Run(s, events).listeners
    decreases |events|
  {
    if |events| > 0 {
      var next := Step(s, events[0]).s;
      assert s.listeners <= next.listeners by {
        match events[0]
        case Boot(v) =>
        case MainClicked =>
        case _ =>
      }
      ListenersOnlyGrow(next, events[1..]);
    }
  }

  /**
   * Under the invariant, a completion push with at least one listener
   * ends in `play` with the refreshed local state, however many times the
   * listener was registered.
   */
  lemma CompletionEndsInPlay(s: S, m: Preload.Message<Value>, refreshed: MainProcess.LocalState)
    requires Inv(s)
    requires |Preload.Handlers(s.listeners, "game-install-complete")| >= 1
    requires HasPayload(m.data)
    ensures var r := Pushed(s, "game-install-complete", m, refreshed).s;
            r.appState == Play && r.localState == Some(refreshed) && !r.gameRunning
  {
    var calls := Preload.Deliver(s.listeners, "game-install-complete", m);
    HandlersOnChannel(s.listeners, OnGameComplete);
    assert ChannelFor(OnGameComplete) == "game-install-complete";
    RepeatedCompletionIsIdempotent(s, calls, refreshed);
  }

  /** On a well-wired registry, the handlers found for a callback's channel are that callback. */
  lemma {:induction false} HandlersOnChannel(listeners: seq<Preload.Listener<Handler>>, h: Handler)
    requires Wired(listeners)
    ensures forall i :: 0 <= i < |Preload.Handlers(listeners, ChannelFor(h))| ==>
              Preload.Handlers(listeners, ChannelFor(h))[i] == h
    decreases |listeners|
  {
    if |listeners| > 0 {
      HandlersOnChannel(listeners[..|listeners| - 1], h);
      var last := listeners[|listeners| - 1];
      if last.handler != h {
        ChannelForInjective(last.handler, h);
      }
    }
  }
}

=== FILE: scenario.dfy ===
/**
 * Whole-launcher runs: the renderer's events fed with what the main
 * process answers. These lemmas tie the modules together on concrete
 * inputs: every `appState` is reachable, an update runs from `update`
 * through `installing` back to `play`, a failed update lands in
 * `install`, and a retry leaves two completion listeners behind.
 */
module Scenario {
  import opened Wrappers
  import opened Json
  import Preload
  import Progress
  import MainProcess
  import opened Renderer

  const GamesDir := "/games/game"

  /** A manifest announcing version 1.2.0, 1000 bytes. */
  const Manifest := JObj([("latestVersion", JStr("1.2.0")),
                          ("downloadUrl", JStr("https://example.com/game.zip")),
                          ("totalSize", JNum(1000))])

  const Installed110 := MainProcess.LocalState(true, Some(JStr("1.1.0")), Some(JStr(GamesDir)))
  const Installed120 := MainProcess.LocalState(true, Some(JStr("1.2.0")), Some(JStr(GamesDir)))

  const AnyEvent := Preload.IpcEvent(1, 1)

  lemma {:induction false} RunAppend(s: S, a: seq<Event>, b: seq<Event>)
    ensures Run(s, a + b) == Run(Run(s, a), b)
    decreases |a|
  {
    if |a| == 0 {
      assert a + b == b;
    } else {
      var next := Step(s, a[0]).s;
      assert (a + b)[0] == a[0];
      assert (a + b)[1..] == a[1..] + b;
      assert Run(s, a + b) == Run(next, a[1..] + b);
      RunAppend(next, a[1..], b);
    }
  }

  lemma RunOne(s: S, e: Event)
    ensures Run(s, [e]) == Step(s, e).s
  {
    assert [e][1..] == [];
  }

  /** Boot with a manifest and a local state. */
  function Booted(local: MainProcess.LocalState): S {
    Step(Step(Init, Boot("1.0.0")).s, Loaded(Ok(Manifest), local)).s
  }

  /** `getVersion` answers, then the manifest and the local state arrive. */
  function BootEvents(local: MainProcess.LocalState): seq<Event> {
    [Boot("1.0.0"), Loaded(Ok(Manifest), local)]
  }

  lemma BootedRun(local: MainProcess.LocalState)
    ensures Run(Init, BootEvents(local)) == Booted(local)
  {
    RunTwo(Init, Boot("1.0.0"), Loaded(Ok(Manifest), local));
  }

  /** After boot, the state is the one `Derive` picks against `Manifest`. */
  lemma BootDerives(local: MainProcess.LocalState)
    ensures Booted(local).appState == Derive(local, Some(JStr("1.2.0")))
    ensures Booted(local).manifest == Manifest
  {
    var s0 := Step(Init, Boot("1.0.0")).s;
    assert Property(Some(Manifest), "latestVersion") == Read(Some(JStr("1.2.0")));
    assert Booted(local) == ManifestLoaded(s0, Ok(Manifest), local).s;
  }

  /**
   * After boot each launcher push reaches its one listener: the update
   * machine moves from `idle` by that push's signal and nothing else changes.
   */
  lemma BootedLauncherPush(local: MainProcess.LocalState, h: Handler, m: Preload.Message<Value>,
                           refreshed: MainProcess.LocalState)
    requires SignalOf(h).Some?
    ensures Pushed(Booted(local), ChannelFor(h), m, refreshed)
         == Output(Booted(local).(launcherUpdate := LauncherUpdate.OnSignal(LauncherUpdate.Idle, SignalOf(h).value)), [])
  {
    var s0 := Step(Init, Boot("1.0.0")).s;
    assert Booted(local) == ManifestLoaded(s0, Ok(Manifest), local).s;
    assert Booted(local).listeners == LauncherListeners;
    LauncherListenersHandlers(h);
    LauncherPushMoves(Booted(local), h, m, refreshed);
  }

  /** Booting derives `install`, `update` or `play` from the local state. */
  lemma BootStates()
    ensures Booted(MainProcess.NotInstalled).appState == Install
    ensures Booted(Installed110).appState == Update
    ensures Booted(Installed120).appState == Play
  {
    BootDerives(MainProcess.NotInstalled);
    BootDerives(Installed110);
    assert JStr("1.1.0") != JStr("1.2.0");
    BootDerives(Installed120);
  }

  /** A click in `install` starts installing. */
  lemma ReachInstalling()
    ensures Run(Init, BootEvents(MainProcess.NotInstalled) + [MainClicked]).appState == Installing
  {
    var s := Booted(MainProcess.NotInstalled);
    BootStates();
    BootDerives(MainProcess.NotInstalled);
    BootedRun(MainProcess.NotInstalled);
    RunAppend(Init, BootEvents(MainProcess.NotInstalled), [MainClicked]);
    RunOne(s, MainClicked);
    InstallFromInstall(s);
  }

  /** With a manifest loaded, a click in `install` enters `installing`. */
  lemma InstallFromInstall(s: S)
    requires s.appState == Install && Truthy(Some(s.manifest))
    ensures Step(s, MainClicked).s.appState == Installing
  {
    assert Step(s, MainClicked) == StartInstall(s);
  }

  lemma RunTwo(s: S, e1: Event, e2: Event)
    ensures Run(s, [e1, e2]) == Step(Step(s, e1).s, e2).s
  {
    assert [e1, e2] == [e1] + [e2];
    RunAppend(s, [e1], [e2]);
    RunOne(s, e1);
    RunOne(Step(s, e1).s, e2);
  }

  /** A click in `play` and a successful launch reach `running`. */
  lemma ReachRunning()
    ensures Run(Init, BootEvents(Installed120) + [MainClicked, LaunchDone(true)]).appState == Running
  {
    var s := Booted(Installed120);
    BootStates();
    BootedRun(Installed120);
    RunAppend(Init, BootEvents(Installed120), [MainClicked, LaunchDone(true)]);
    RunTwo(s, MainClicked, LaunchDone(true));
    LaunchFromPlay(s);
  }

  /** In `play`, a click followed by a successful launch enters `running`. */
  lemma LaunchFromPlay(s: S)
    requires s.appState == Play
    ensures Step(Step(s, MainClicked).s, LaunchDone(true)).s.appState == Running
  {
    assert MainAction(s).s == s;
  }

  /** Every value of `appState` occurs in some run from the start. */
  lemma AllStatesReachable(st: AppState)
    ensures exists events :: Run(Init, events).appState == st
  {
    match st
    case Loading =>
      assert Run(Init, []).appState == Loading;
    case Install =>
      BootStates();
      BootedRun(MainProcess.NotInstalled);
      assert Run(Init, BootEvents(MainProcess.NotInstalled)).appState == Install;
    case Update =>
      BootStates();
      BootedRun(Installed110);
      assert Run(Init, BootEvents(Installed110)).appState == Update;
    case Play =>
      BootStates();
      BootedRun(Installed120);
      assert Run(Init, BootEvents(Installed120)).appState == Play;
    case Installing =>
      ReachInstalling();
    case Running =>
      ReachRunning();
  }

  /** The options the renderer sends for `Manifest`. */
  const Opts := MainProcess.InstallOpts(Some(JStr("1.2.0")), Some(JStr("https://example.com/game.zip")),
                                        Some(JNum(1000)))

  /** After booting into `update`, the record holds the manifest and satisfies `Inv`. */
  lemma UpdateBooted()
    ensures var s := Booted(Installed110);
            s.appState == Update && s.manifest == Manifest && Inv(s)
  {
    BootStates();
    InitInv();
    BootInv(Init, "1.0.0");
    StepInv(Step(Init, Boot("1.0.0")).s, Loaded(Ok(Manifest), Installed110));
  }

  lemma OptsOfManifest()
    ensures Get(Some(Manifest), "latestVersion") == Some(JStr("1.2.0"))
    ensures Get(Some(Manifest), "downloadUrl") == Some(JStr("https://example.com/game.zip"))
    ensures Get(Some(Manifest), "totalSize") == Some(JNum(1000))
  {
  }

  /** A click with `Manifest` loaded sends `install-game` with `Opts`. */
  lemma ClickSendsOpts(s: S)
    requires s.appState == Update && s.manifest == Manifest && Inv(s)
    ensures var c := Step(s, MainClicked);
      && c.s.appState == Installing
      && c.requests == [Preload.Invocation("install-game", [Some(Opts)])]
      && Inv(c.s)
      && |Preload.Handlers(c.s.listeners, "game-install-complete")| >= 1
  {
    MainClickedInv(s);
    StartInstallRegisters(s);
    OptsOfManifest();
  }

  /** Two 500-byte chunks of 1000 report 50% and then 100%. */
  lemma TwoChunks()
    ensures Progress.Events([500, 500], Some(1000))
         == [Progress.Event(50, 500, Some(1000)), Progress.Event(100, 1000, Some(1000))]
  {
    var chunks: seq<nat> := [500, 500];
    assert chunks[..1] == [500];
    assert chunks[..2] == chunks;
    assert Progress.Sum([500]) == 500;
    assert Progress.Sum(chunks) == 1000;
    assert Progress.Percent(500, Some(1000)) == 50;
    assert Progress.Percent(1000, Some(1000)) == 100;
  }

  /**
   * The main process installing `Opts` with two 500-byte chunks and no
   * Content-Length: 50%, then 100%, then the record for 1.2.0, which
   * reads back as installed 1.2.0, and the promise resolves.
   */
  lemma DownloadOfUpdate(now: nat)
    ensures var effects := MainProcess.InstallGame(Opts, GamesDir, true,
                             MainProcess.Streamed(None, [500, 500], MainProcess.Ended), true, true, true, now);
      && |effects| >= 4
      && effects[0] == MainProcess.SendProgress(Progress.Event(50, 500, Some(1000)))
      && effects[1] == MainProcess.SendProgress(Progress.Event(100, 1000, Some(1000)))
      && effects[|effects| - 3] == MainProcess.WriteState(MainProcess.StateRecord(Some(JStr("1.2.0")), GamesDir, now))
      && effects[|effects| - 1] == MainProcess.Resolve
      && MainProcess.GetGameState(MainProcess.Parsed(MainProcess.StateRecord(Some(JStr("1.2.0")), GamesDir, now)))
         == Installed120
  {
    var chunks: seq<nat> := [500, 500];
    var transfer := MainProcess.Streamed(None, chunks, MainProcess.Ended);
    MainProcess.TotalFromManifest(None, 1000);
    assert MainProcess.DownloadTotal(None, Opts.totalSize) == Some(1000);
    TwoChunks();
    MainProcess.InstallProgress(Opts, GamesDir, transfer, true, true, true, now);
    MainProcess.InstallSuccessOrder(Opts, GamesDir, transfer, true, now);
    MainProcess.StateRecordRoundTrip(Some(JStr("1.2.0")), GamesDir, now);
  }

  /**
   * The completion push in `installing` brings the renderer to `play`
   * with the refreshed state, and a fresh boot against the same manifest
   * would derive `play` as well.
   */
  lemma CompletionAfterUpdate(s: S, m: Preload.Message<Value>)
    requires Inv(s) && |Preload.Handlers(s.listeners, "game-install-complete")| >= 1
    requires HasPayload(m.data)
    ensures var done := Pushed(s, "game-install-complete", m, Installed120).s;
      && done.appState == Play && done.localState == Some(Installed120)
      && ManifestLoaded(done, Ok(Manifest), Installed120).s.appState == Play
  {
    CompletionEndsInPlay(s, m, Installed120);
    BootDerivation(Pushed(s, "game-install-complete", m, Installed120).s, Manifest, Installed120);
  }

  /**
   * An update from 1.1.0 to 1.2.0 from end to end: `update`, a click that
   * sends `Opts`, a download whose record reads back as 1.2.0, and the
   * completion push that ends in `play`.
   */
  lemma UpdateScenario(now: nat)
    ensures var s := Booted(Installed110);
      var clicked := Step(s, MainClicked);
      var record := MainProcess.StateRecord(Opts.version, GamesDir, now);
      var effects := MainProcess.InstallGame(Opts, GamesDir, true,
                       MainProcess.Streamed(None, [500, 500], MainProcess.Ended), true, true, true, now);
      var done := Pushed(clicked.s, "game-install-complete",
                         Preload.Message(AnyEvent, Some(JObj([("version", JStr("1.2.0"))]))),
                         MainProcess.GetGameState(MainProcess.Parsed(record))).s;
      && s.appState == Update
      && clicked.requests == [Preload.Invocation("install-game", [Some(Opts)])]
      && |effects| >= 3 && effects[|effects| - 3] == MainProcess.WriteState(record)
      && done.appState == Play && done.localState == Some(Installed120)
  {
    UpdateBooted();
    ClickSendsOpts(Booted(Installed110));
    DownloadOfUpdate(now);
    CompletionAfterUpdate(Step(Booted(Installed110), MainClicked).s,
                          Preload.Message(AnyEvent, Some(JObj([("version", JStr("1.2.0"))]))));
  }

  /**
   * A failed install falls back to `install`, and the retry registers a
   * second progress and completion listener on top of the first.
   */
  lemma FailThenRetry(s: S)
    requires s.appState in {Install, Update} && Truthy(Some(s.manifest))
    ensures var failed := InstallSettled(Step(s, MainClicked).s, false);
      var retried := Step(failed, MainClicked).s;
      && failed.appState == Install
      && failed.manifest == s.manifest && failed.localState == s.localState
      && retried.appState == Installing
      && Preload.Handlers(retried.listeners, "game-install-complete")
         == Preload.Handlers(s.listeners, "game-install-complete") + [OnGameComplete, OnGameComplete]
  {
    var failed := InstallSettled(Step(s, MainClicked).s, false);
    FailedAttempt(s);
    StartInstallRegisters(s);
    assert Preload.Handlers(failed.listeners, "game-install-complete")
        == Preload.Handlers(s.listeners, "game-install-complete") + [OnGameComplete];
    RetryAfterFailure(failed);
  }

  /** The first attempt: `installing`, then back to `install` with the new listeners kept. */
  lemma FailedAttempt(s: S)
    requires s.appState in {Install, Update} && Truthy(Some(s.manifest))
    ensures var failed := InstallSettled(Step(s, MainClicked).s, false);
      && failed.appState == Install
      && failed.manifest == s.manifest && failed.localState == s.localState
      && failed.listeners == StartInstall(s).s.listeners
  {
    var s1 := StartInstall(s).s;
    assert Step(s, MainClicked).s == s1;
    assert InstallSettled(s1, false) == SetAppState(s1, Install);
  }

  /** The retry from `install` registers its own pair of listeners. */
  lemma RetryAfterFailure(failed: S)
    requires failed.appState == Install && Truthy(Some(failed.manifest))
    ensures var retried := Step(failed, MainClicked).s;
      && retried.appState == Installing
      && Preload.Handlers(retried.listeners, "game-install-complete")
         == Preload.Handlers(failed.listeners, "game-install-complete") + [OnGameComplete]
  {
    assert Step(failed, MainClicked) == StartInstall(failed);
    StartInstallRegisters(failed);
  }

  lemma HandlersOfLauncherListeners()
    ensures Preload.Handlers(SetupLauncherUpdateListeners([]), "game-install-complete") == []
  {
    var r := SetupLauncherUpdateListeners([]);
    assert r == LauncherListeners;
    assert r[..4][..3][..2][..1][..0] == [];
  }

  /** After booting, the only listeners are the launcher's own five. */
  lemma BootedHasNoCompletionListener(local: MainProcess.LocalState)
    ensures Preload.Handlers(Booted(local).listeners, "game-install-complete") == []
  {
    assert Booted(local).listeners == SetupLauncherUpdateListeners([]);
    HandlersOfLauncherListeners();
  }

  /**
   * A failed update lands in `install`, not back in `update`, although
   * the installed version is unchanged and booting again would derive
   * `update`. Retrying then leaves two completion listeners registered.
   */
  lemma FailedUpdateScenario()
    ensures var s := Booted(Installed110);
      var failed := InstallSettled(Step(s, MainClicked).s, false);
      var retried := Step(failed, MainClicked).s;
      && s.appState == Update
      && failed.appState == Install
      && ManifestLoaded(failed, Ok(Manifest), Installed110).s.appState == Update
      && retried.appState == Installing
      && Preload.Handlers(retried.listeners, "game-install-complete") == [OnGameComplete, OnGameComplete]
  {
    var s := Booted(Installed110);
    UpdateBooted();
    FailThenRetry(s);
    BootedHasNoCompletionListener(Installed110);
    BootDerivation(InstallSettled(Step(s, MainClicked).s, false), Manifest, Installed110);
  }

  /**
   * Launching has no guard of its own: two clicks in `play` before the
   * first launch settles send two launch requests.
   */
  lemma DoubleClickLaunchesTwice(s: S)
    requires s.appState == Play
    ensures Step(s, MainClicked).requests == [Call(Preload.LaunchGame)]
    ensures Step(Step(s, MainClicked).s, MainClicked).requests == [Call(Preload.LaunchGame)]
  {
    assert Step(s, MainClicked) == MainAction(s);
    assert MainAction(s).s == s;
  }

  /**
   * The close button: it appears when the 3-second timer fires while the
   * game runs, and a timer firing after the game was closed shows nothing.
   */
  lemma CloseButtonTiming()
    ensures var running := LaunchSettled(Booted(Installed120), true);
      && TimerFired(running, false).closeButtonShown
      && !TimerFired(CloseSettled(running), false).closeButtonShown
      && CloseSettled(TimerFired(running, false)).appState == Play
  {
  }
}

=== FILE: wrappers.dfy ===
/** The optional values and promise outcomes shared by the launcher model. */
module Wrappers {

  /** An optional value; in the launcher model `None` also stands for JavaScript's `undefined`. */
  datatype Option<+T> = None | Some(value: T)

  /** The outcome of a promise: resolved with a value or rejected with an error. */
  datatype Result<+T, +E> = Ok(value: T) | Err(error: E)
}
